=== FILE: README.md ===
# gogitpr: a Dafny model of the GitHub client core and the pull-request store

gogitpr reads the pull requests of a GitHub user or organisation and keeps
them in memory. This project models its core:

- **Pagination** (`doFullPagination`). The first response's `last` link
  (Web Linking, section 3 of RFC 8288) gives the page count. The request for
  every page, 1..N in order, is sent and its response goes to a consumer. The
  walk stops at the first error. Whether the `page` value actually reaches the
  URL depends on the request builder (see Findings): as written, every page
  request is the first request again.
- **Client arguments and request building.** This covers `GithubAPIArgs.validate`,
  `NewGithubAPI`, the request descriptor and its copy, and how `doRequest`
  turns a descriptor into an HTTP request.
- **The repository client.** This covers `RepoArgs.validate`, the listing
  endpoint, `repo.Get` and the `extractRepos` consumer.
- **The pull-request client.** This covers `PullRequestArgs.validate`, the
  pulls endpoint, `populateRepos`, `pullRequest.Get` and the `extractPRs` consumer.
- **The in-memory store.** An insertion-ordered sequence of records, an
  ID → record index, batch insert, full read, a fallible filter and lookup by ID.

Everything outside the program is an oracle held by a `Pagination.Client` or
passed in as a function value:

- the network (`http.Client.Do`);
- the Link-header parser;
- `url.Parse`;
- the JSON decoders;
- the caller's filter.

Both defects listed under Findings are modelled as written and as
corrected, through a mode that the clients take as a parameter:

- `Pagination.Client` holds an `Api.QueryBuilding`. `QueryDropped` is
  `doRequest` as written. `QueryWritten` writes the values into the URL.
- `Repo.Get`, `PullRequest.PopulateRepos` and `PullRequest.Get` take a
  `Repo.OwnerRule`. `OrgRequired` is `RepoArgs.validate` as written.
  `ExactlyOne` is the rule its error states.

Every client contract holds for every mode. Where a mode changes the
outcome, the contract says so.

Go's error returns are `Result` values. The store is a value: each write
returns the new store. The paginator's consumer is a state-passing function.
What Go gathers through a captured slice pointer is an explicit accumulator here.

Modules, one file each:

- `Results`: Option, Result and the client's errors.
- `Strconv`: `Itoa` and `Atoi`, for 64-bit `int`.
- `Api`: api/api.go except the paginator.
- `Pagination`: `doFullPagination` and the extracting consumer.
- `Repo`: api/repo.go.
- `PullRequest`: api/pr.go.
- `Db`: db/db.go.

`DoFullPagination` returns, besides the consumer's state and the error, a
ghost trace: the descriptors it sent and the responses it consumed. Its
contract is stated against an independent description of the resource.
`Pagination.CompleteWalk` says a sequence of responses is every announced
page, each fetched without error. Success means the trace is that walk and
the consumer ran over all of it. Failure means the trace stopped at the
first error, and `Pagination.StoppedWalkFails` then shows that no complete
walk could have gone through without that same error.

The clients are stated against the same description. A resource is
readable when it has a complete walk whose every page decodes.
`Pagination.ReadAll` is its records: the decoded pages concatenated in page
order. Each client succeeds exactly when everything it reads is readable,
and then returns those records.

The outcome is also stated exactly, errors included. `Pagination.Paginate`
defines a walk's outcome recursively: the first request, its page count,
the consumer on it, then pages 2..N, ending at the first error.
`Pagination.Read` is that outcome for the extracting consumer. A client's
failure is the first request, page-count or decoding error of that reading,
unchanged.

## Model

| member | source | states |
|---|---|---|
| `Api.Validate` | api/api.go:78-95 | An empty base URL becomes `https://api.github.com` and `VersionDefault` becomes `Version3`, whatever the outcome. Any other version is refused first, then an empty application name. The arguments pass exactly when the version ends up `Version3` and a name is given. |
| `Api.ValidateIdempotent` | api/api.go:78-95 | Arguments that passed validation pass again unchanged: the defaults it fills in are stable. |
| `Api.NewGithubApi` | api/api.go:56-76 | A validation error or a URL-parse error is returned as is. Arguments that validate, with a base URL that parses, always give a client. That client holds the parsed (possibly defaulted) base URL, the token, the application name and version 3. |
| `Api.NewGithubApiFromValidated` | api/api.go:56-76 | Constructing a client from arguments that already passed validation gives the same client as from the original arguments. |
| `Api.DeepCopy` | api/api.go:121-125 | The copy has the original's endpoint, method and values. |
| `Api.Authorization` | api/api.go:146-148 | The `Authorization` header is present exactly when the token is non-empty, and then reads `token <t>`. |
| `Api.BuildRequestAsWritten` | api/api.go:128-148 | As written, the URL's query is always the base URL's own: the descriptor's values never reach it. In every other respect it is the request the value-writing builder makes for a descriptor without values: the descriptor's method, the base path followed by the endpoint, and the token header exactly when the token is non-empty. |
| `Api.PageNeverReachesQuery` | api/api.go:135-139 | As written, the requests for page 2 and page 3 of a descriptor are the same HTTP request. |
| `Api.BuildRequest` | api/api.go:128-148 | The request carries the descriptor's method. Its path is the base path followed by the endpoint. Each value appears in the query, overriding the base URL's, and other keys keep the base URL's. The token is sent exactly when non-empty. |
| `Api.DistinctPagesDistinctRequests` | api/api.go:133-139 | Descriptors that differ in their `page` value become different HTTP requests. |
| `Strconv.Atoi` | api/api.go:177-181 | Success exactly when the text is an optional sign followed by at least one decimal digit, with a signed value in 64-bit range. The result is then that signed value. Failure reports the rejected text. |
| `Strconv.Itoa` | api/api.go:192 | The text is never empty. A negative value gives a '-' followed by at least one digit. Any other value gives digits only. |
| `Strconv.AtoiSignedDigits` | api/api.go:177-181 | Any of '+', '-' or no sign before any non-empty run of digits, leading zeros included, reads as its signed value when that fits in 64 bits, and is refused otherwise. |
| `Strconv.AtoiItoa` | api/api.go:178-192 | Reading back the decimal text `Itoa` writes for any 64-bit value gives that value. |
| `Strconv.ItoaInjective` | api/api.go:192 | Distinct page numbers are written as distinct `page` values. |
| `Strconv.ItoaReadsBack` | api/api.go:192 | The text starts with '-' exactly for negative values. The digits that follow have the value's magnitude as their decimal value. |
| `Pagination.TotalPages` | api/api.go:167-185 | There is 1 page when there is no `last` link. A `last` link whose URL does not parse fails with the parser's error. For a parsed URL: 1 page when its `page` value is empty or absent, otherwise the result of `Atoi` on that value, error included. A count that cannot be read is an error, which the paginator returns before the consumer runs. |
| `Pagination.TotalPagesReadsLastPage` | api/api.go:177-182 | A `last` link whose `page` value holds the decimal text of n announces exactly n pages. |
| `Pagination.Issue` | api/api.go:128-150 | The network answers the HTTP request built from the descriptor. With the builder as written, that is the request for the same descriptor with its values dropped. |
| `Pagination.PageParam` | api/api.go:177 | The URL's `page` query value, or the empty string when there is none. |
| `Pagination.PageRequest` | api/api.go:156-192 | Every page keeps the descriptor's endpoint and method. Page 1 is the descriptor itself. Page k sets its `page` value to the decimal text of k. |
| `Pagination.DroppedQueryRepeatsFirstPage` | api/api.go:135-139 | With the builder as written, every page of a complete walk is the first page again. |
| `Pagination.DroppedQueryReadsFirstPageOnly` | api/api.go:135-139 | With the builder as written, a resource of N pages decodes to N copies of its first page's records. |
| `Pagination.PageCount` | api/api.go:187-202 | The consumer runs exactly N times when the announced count N is at least 1, and exactly once when N is below 1, because the page loop then does not run. |
| `Pagination.PageRequestsDistinct` | api/api.go:191-192 | The descriptors for two different later pages differ, in their `page` value. |
| `Pagination.WalkDeterministic` | api/api.go:191-202 | A resource has at most one complete walk: the server's answers to the page requests determine it. |
| `Pagination.NoWalkPastFailure` | api/api.go:194-197 | A request for a page inside the announced range that fails leaves no complete walk. |
| `Pagination.AbortIsFinal` | api/api.go:187-201 | A consumer error on a prefix of the walk is the error of the whole walk. |
| `Pagination.DoFullPagination` | api/api.go:155-205 | Page k is requested only after pages 1..k-1, with the descriptor for page k, and never beyond the announced count. The consumer sees the response to each request in order, and only after the count was read. On success every announced page was fetched and consumed. On failure the returned error is the first one: the last request's, the page count's (before the consumer ran), or the consumer's on the last response. The outcome (the state, or the first error unchanged) equals the recursive definition `Paginate`. Without the trace: success gives the consumer's state after a complete walk of the resource, and an error is the one every complete walk ends in. |
| `Pagination.FetchLaterPages` | api/api.go:191-202 | Given a first response already counted and consumed, pages 2..N are requested in order with the descriptor for each page, each response goes to the consumer in order, and the loop stops at the first request or consumer error. Its outcome equals the recursive definition of pages 2..N. If nothing fails, the whole trace is a complete walk and the consumer state is the one after consuming every page. |
| `Pagination.ExtractedWalkReads` | api/repo.go:62-77 | A complete walk the extracting consumer got through shows the resource readable. What the consumer appended is exactly the resource's records. |
| `Pagination.ExtractFailureUnreadable` | api/repo.go:62-77 | If the extracting consumer fails on every complete walk, the resource is not readable, and every complete walk fails to decode with that error. |
| `Pagination.ReadResource` | api/repo.go:41-43 | Paginating with the extracting consumer gives the resource's reading with the accumulator in front. A failure is the first request, page-count or decoding error, unchanged. That reading succeeds exactly when the resource is readable, with its records. On failure every complete walk fails to decode with the returned error. The first descriptor sent is the given one. |
| `Pagination.PaginateExtractShift` | api/repo.go:38-45 | Starting the extracting consumer from a non-empty list puts that list in front of the records and changes no error. |
| `Pagination.StoppedWalkFails` | api/api.go:162-201 | After a walk stopped at error e, every complete walk of the same resource also ends in e for the same consumer. |
| `Pagination.ExtractStep` | api/repo.go:66-74 | A decode error is returned with nothing appended. Otherwise the accumulator is kept as a prefix, followed by exactly the decoded page. |
| `Pagination.Extract` | api/repo.go:62-77 | The consumer (`extractRepos`, and `extractPRs` alike) fails with the decoding error of a page that does not decode, appending nothing. Otherwise it appends the decoded page after everything gathered so far. |
| `Pagination.ConsumeExtract` | api/repo.go:62-77 | Running the extracting consumer over a walk appends the concatenation of the decoded pages, in page order, to the starting list. If any page fails to decode, the walk fails with the first such error. |
| `Repo.ValidateAsWritten` | api/repo.go:23-31 | As written, the listing arguments are refused exactly when no organisation is named: a user alone is refused, and user plus organisation is accepted. |
| `Repo.UserListingRefusedAsWritten` | api/repo.go:24-25 | The as-written validator refuses the user-only listing `{User: "octocat"}`, which the owner rule accepts. |
| `Repo.Validate` | api/repo.go:23-31 | The listing arguments pass exactly when one of user and organisation is named, not both. |
| `Repo.ValidatorsDisagreeOnUsers` | api/repo.go:23-31 | The two validators differ exactly on arguments that name a user. |
| `Repo.FormRequestArgs` | api/repo.go:48-60 | A GET with no values, of `/users/{user}/repos` when a user is named and of `/orgs/{org}/repos` otherwise. |
| `Repo.UserAndOrgEndpointsDiffer` | api/repo.go:50-54 | A user's listing endpoint never equals an organisation's. |
| `Repo.FormRequestArgsInjective` | api/repo.go:48-60 | Arguments that pass the exactly-one owner rule and have the same descriptor are the same arguments: the owner can be read back from the endpoint. As written this fails: a user named together with an organisation lists the user's repositories and ignores the organisation (see Findings). |
| `Repo.Get` | api/repo.go:33-46 | Arguments refused by the owner rule give the validation error with no request sent. As written, that is every user-only listing. Accepted arguments return exactly the reading of the listing: every listed repository in page order, or the first request, page-count or decoding error unchanged. The call succeeds exactly when the listing is readable. On failure there is no partial list. |
| `PullRequest.Validate` | api/pr.go:16-26 | The arguments pass exactly when one of user and organisation is named, not both: the owner rule of the repository listing. |
| `PullRequest.Owner` | api/pr.go:81-86 | The owner is the user when one is named, else the organisation. |
| `PullRequest.FormRequestArgs` | api/pr.go:80-93 | A GET with no values of `/repos/{owner}/{repo}/pulls`. |
| `PullRequest.FormRequestArgsInjective` | api/pr.go:87 | For one owner, distinct repositories have distinct pulls endpoints. |
| `PullRequest.ScopeRepoArgs` | api/pr.go:96-107 | The listing is asked for with only the user when one is named, else with only the organisation. |
| `PullRequest.PopulateScopeValid` | api/pr.go:96-109 | For arguments that passed validation, the listing passes the owner rule and is of the same owner whose pull requests are read. |
| `PullRequest.UserOnlyListingRefusedAsWritten` | api/pr.go:97-100 | For a named user, the listing `populateRepos` asks for is refused by the owner rule as written and accepted by the exactly-one rule. |
| `PullRequest.Names` | api/pr.go:114-116 | One name per listed repository, in listing order. |
| `PullRequest.PopulateRepos` | api/pr.go:95-119 | A listing refused by the owner rule fails with the scope error and no request. As written, that is every named user. The call succeeds exactly when the listing passes and is readable, and then appends the listed names, in order, to the requested repositories. The caller's arguments then hold those names, as Go's append through the argument pointer leaves them. On failure the caller's arguments are unchanged. A failure of an accepted listing is the listing's first error, unchanged. |
| `PullRequest.CollectPulls` | api/pr.go:51-60 | Succeeds exactly when every named repository's pull requests are readable. The result is then their concatenation in repository order. A failure comes from a repository whose predecessors are all readable, and it is that repository's first request, page-count or decoding error. Nothing gathered is kept. A request is sent exactly when some repository is named. |
| `PullRequest.Get` | api/pr.go:40-61 | Refused arguments give the validation error and nothing is sent. The owner's repositories are listed exactly when none are named. As written, a user who names no repository always gets the scope error, and nothing is sent. Otherwise the call succeeds exactly when the listing (if one is needed) passes the owner rule and is readable, and every repository is readable. The result is then every repository's pull requests in repository order, over the named repositories or the listed names. A failing repository gives the first error of the first repository that cannot be read. An unreadable listing gives the listing's first error. After the call, the caller's arguments hold the listed names whenever the listing was read, even if a repository then failed. So when the listing named at least one repository, a second call with the same arguments does not list again. Otherwise the caller's arguments are unchanged. |
| `Db.LastWithId` | db/db.go:49 | The most recently stored record with the ID. It is absent exactly when no stored record has that ID. |
| `Db.IndexKeysAreStoredIds` | db/db.go:46-52 | Under the store's invariant, the index's keys are exactly the IDs of the stored records. |
| `Db.NewDb` | db/db.go:29-35 | A new store is empty and satisfies the invariant. |
| `Db.StorePullRequest` | db/db.go:46-52 | The sequence becomes the old one plus the record. A lookup of its ID yields it, and every other ID keeps its entry. |
| `Db.StorePreservesValid` | db/db.go:46-52 | Storing keeps the invariant that the index holds the last record stored with each ID. |
| `Db.StoreEachEffect` | db/db.go:54-62 | Storing a batch appends it in input order. Each ID maps to the batch's last record with that ID, or to its old entry when the batch does not mention it. |
| `Db.StoreEachPreservesValid` | db/db.go:54-62 | The invariant survives any batch of stores, so it holds from `NewDB` on. |
| `Db.StorePullRequestBatch` | db/db.go:54-62 | The batch is stored record by record in input order, the sequence becomes old plus the batch, and the invariant is kept. |
| `Db.GetAllPullRequests` | db/db.go:64-70 | Every stored record, in insertion order. |
| `Db.ReadBackAfterStore` | db/db.go:64-70 | After storing a batch, reading everything gives the old records followed by the batch. |
| `Db.GetFilterPullRequests` | db/db.go:72-85 | The result is the filter's selection of the stored records. The filter's first error ends the scan: it is returned, with nothing after that record examined. On success every record was examined. |
| `Db.SelectPrefixFailure` | db/db.go:75-78 | A filter error on a prefix of the records is the error of the whole scan. |
| `Db.SelectKeepsAccepted` | db/db.go:72-85 | A successful filter keeps exactly the stored records the filter accepts. |
| `Db.SelectSucceedsIffFilterDoes` | db/db.go:74-78 | A filter scan succeeds exactly when the filter answers every record without error. |
| `Db.SelectAppend` | db/db.go:79-81 | Filtering keeps insertion order: the kept records of a concatenation are those of its first part followed by those of its second. |
| `Db.GetPullRequestById` | db/db.go:87-96 | Found exactly when the ID is indexed, with the indexed record. Otherwise it gives the zero record and false. |
| `Db.LookupFindsLastWrite` | db/db.go:87-96 | Under the invariant, a lookup yields the last record stored with the ID, or the zero record and false when that ID was never stored. |
| `Db.ReadYourWrite` | db/db.go:49 | A lookup right after storing a record finds that record. |

## Left out

- HTTP itself is an oracle of `Pagination.Client`: `http.NewRequest`, `client.Do`, response bodies and `Close`. An error from `http.NewRequest` is one of the oracle's failures.
- JSON decoding is an oracle. `RepoData` keeps only its ID and name, and `PullRequestData` keeps its ID, number, state and title. The other wire fields and api/git.go are not modelled.
- Link-header parsing is an oracle returning the `last` relation's URI. So is `url.Parse`. `strconv.Atoi` is modelled concretely, but its syntax and range errors are one error, `BadNumber`.
- `NewGithubAPI` stores `ApplicationName` as the client's user agent (api/api.go:69), but `doRequest` never sets a `User-Agent` header. `Api.BuildRequest` does not send one either.
- Pagination.DoFullPagination: the page counter is unbounded. Go's `curPage++` wraps when the announced count is the largest 64-bit value, which the model does not follow.
- Api.DeepCopy: `deepCopyRequestArgs` copies the struct, so the copy shares its `values` map with the original. The paginator then writes `page` into that map, which is the caller's map whenever it was not nil. Value semantics here cannot show that sharing, so the model has no statement about isolation.
- The network is a fixed function `fetch` from an HTTP request to a response or an error. So a repeated request gets the same answer, and a transient failure is a permanent one. Results that depend on this include `Pagination.WalkDeterministic`, `Readable`/`ReadAll`, the clients' "succeeds exactly when readable" contracts and `Pagination.DroppedQueryRepeatsFirstPage`. Retries, time-varying answers and a resource changing during a walk are not modelled.
- A nil `values` map is the empty map. The paginator's replacement of a nil map with a fresh one changes nothing in the model.
- The store's index points into its own slice in Go. Here it holds the record itself, which is what a lookup copies out.
- The store methods whose Go error is always nil return only their result: `StorePullRequest`, `StorePullRequestBatch`, `GetAllPullRequests` and `GetPullRequestByID`.
- Db.StorePullRequest: the index is keyed by ID alone, as in the code. Pull requests of different repositories that share an ID overwrite each other's index entry while both stay in the sequence.
- Logging, `config/config.go`, `main.go`, the `GithubAPI` factory methods and `reqString` hold no logic to verify and are not part of this model.
- The store is not safe for concurrent use in the source. Concurrency is not modelled.
- The error-name mismatch `UserOrgErr` / `ErrUserOrg` is not modelled: the error is the single value `UserOrg`.

## Findings

| source | as written | input that shows it | evidently intended | confidence | as-written member | corrected member |
|---|---|---|---|---|---|---|
| api/repo.go:24 | The first test refuses a user with no organisation. Nothing refuses a user together with an organisation. | `RepoArgs{User: "octocat"}` is refused with the user/org error. `RepoArgs{User: "a", Org: "b"}` passes and lists `/users/a/repos`, the same descriptor as `{User: "a", Org: "c"}`: the organisation is silently ignored. So `pullRequest.Get` for a user with no repositories named always fails in `populateRepos`. | Refuse unless exactly one of User and Org is set. The error's own message says so (api/errors.go:9), and so does the pull-request validator (api/pr.go:17-23). | not executed | `Repo.ValidateAsWritten` (shown by `Repo.UserListingRefusedAsWritten`, `PullRequest.UserOnlyListingRefusedAsWritten`, and `PullRequest.Get` under `OrgRequired`) | `Repo.Validate` (used by `Repo.Get` under `ExactlyOne`; `PullRequest.PopulateScopeValid`) |
| api/api.go:137 | Each value is set on the map `u.Query()` returns, which is a fresh copy. The URL's query is never written. | A descriptor with values `{"page": "2"}` produces the same request as one with `{"page": "3"}`. Every later page fetches page 1 again. | Write the values into the URL's query, so that page k is requested with `page=k`. | not executed | `Api.BuildRequestAsWritten` (shown by `Api.PageNeverReachesQuery` and `Pagination.DroppedQueryReadsFirstPageOnly`) | `Api.BuildRequest` (used by `Pagination.Issue` under `QueryWritten`; `Api.DistinctPagesDistinctRequests`) |

=== FILE: api.dfy ===
/** The client's configuration checks and the single-request layer
    (api/api.go): validating `GithubAPIArgs`, the request descriptor handed
    to the paginator, and how one descriptor becomes one HTTP request. */
module Api {
  import opened Results

  const DefaultBase: string := "https://api.github.com"

  // The `Version` enumeration is a Go `int`; any other value can be passed in.
  const VersionDefault: int := 0
  const Version3: int := 1
  const Version4: int := 2

  datatype GithubApiArgs = GithubApiArgs(
    baseUrl: string,
    token: string,
    applicationName: string,
    version: int)

  /** `validate` both fills in defaults (through its pointer receiver) and
      reports an error: both outcomes are kept. */
  datatype Checked = Checked(args: GithubApiArgs, err: Option<Error>)

  function Validate(a: GithubApiArgs): (r: Checked)
    // defaults are filled in whatever the outcome
    ensures r.args.baseUrl == if a.baseUrl == "" then DefaultBase else a.baseUrl
    ensures r.args.baseUrl != ""
    ensures r.args.token == a.token && r.args.applicationName == a.applicationName
    ensures a.version == VersionDefault ==> r.args.version == Version3
    ensures a.version != VersionDefault ==> r.args.version == a.version
    // the version is checked before the application name
    ensures a.version != VersionDefault && a.version != Version3 ==>
              r.err == Some(ArgUnsupported("Version", a.version))
    ensures (a.version == VersionDefault || a.version == Version3) && a.applicationName == "" ==>
              r.err == Some(ArgMissing("ApplicationName"))
    ensures r.err.None? <==> r.args.version == Version3 && a.applicationName != ""
  {
    var base := if |a.baseUrl| == 0 then DefaultBase else a.baseUrl;
    if a.version == VersionDefault then
      var filled := a.(baseUrl := base, version := Version3);
      if |a.applicationName| == 0 then Checked(filled, Some(ArgMissing("ApplicationName")))
      else Checked(filled, None)
    else if a.version != Version3 then
      Checked(a.(baseUrl := base), Some(ArgUnsupported("Version", a.version)))
    else if |a.applicationName| == 0 then
      Checked(a.(baseUrl := base), Some(ArgMissing("ApplicationName")))
    else
      Checked(a.(baseUrl := base), None)
  }

  /** Validating arguments that already passed changes nothing. */
  lemma ValidateIdempotent(a: GithubApiArgs)
    requires Validate(a).err.None?
    ensures Validate(Validate(a).args) == Checked(Validate(a).args, None)
  {
  }

  /** The parts of a parsed URL the client looks at. */
  datatype Url = Url(path: string, query: map<string, string>)

  /** What the client keeps once constructed: the parsed base URL, the token
      and the application name. */
  datatype Config = Config(base: Url, token: string, userAgent: string, version: int)

  /** `NewGithubAPI`: validate, then parse the (possibly defaulted) base URL
      with the URL parser `parseUrl`. */
  function NewGithubApi(a: GithubApiArgs, parseUrl: string -> Result<Url, Error>): (r: Result<Config, Error>)
    ensures Validate(a).err.Some? ==> r == Failure(Validate(a).err.value)
    ensures Validate(a).err.None? && parseUrl(Validate(a).args.baseUrl).Failure? ==>
              r == Failure(parseUrl(Validate(a).args.baseUrl).error)
    ensures r.Success? ==> r.value.base == parseUrl(Validate(a).args.baseUrl).value
    ensures r.Success? ==> r.value.token == a.token && r.value.userAgent == a.applicationName
    ensures r.Success? ==> r.value.version == Version3
    // arguments that validate and whose base URL parses always give a client
    ensures Validate(a).err.None? && parseUrl(Validate(a).args.baseUrl).Success? ==> r.Success?
  {
    var checked := Validate(a);
    if checked.err.Some? then Failure(checked.err.value)
    else match parseUrl(checked.args.baseUrl)
      case Failure(e) => Failure(e)
      case Success(u) => Success(Config(u, checked.args.token, checked.args.applicationName, checked.args.version))
  }

  /** Constructing a client from arguments that were already validated, and
      so already carry their defaults, gives the same client. */
  lemma NewGithubApiFromValidated(a: GithubApiArgs, parseUrl: string -> Result<Url, Error>)
    requires Validate(a).err.None?
    ensures NewGithubApi(Validate(a).args, parseUrl) == NewGithubApi(a, parseUrl)
  {
    ValidateIdempotent(a);
  }

  /** `requestArgs`: one logical request. Go's nil `values` map is the empty
      map here (every use of `values` treats the two alike). */
  datatype RequestArgs = RequestArgs(values: map<string, string>, endpoint: string, verb: string)

  /** `deepCopyRequestArgs`: a descriptor with the same method, endpoint and
      values. Descriptors are values here, so the model has no aliasing. */
  function DeepCopy(a: RequestArgs): (r: RequestArgs)
    ensures r.endpoint == a.endpoint && r.verb == a.verb && r.values == a.values
  {
    RequestArgs(a.values, a.endpoint, a.verb)
  }

  /** One HTTP request as sent: method, URL path and query, and the optional
      `Authorization` header. */
  datatype HttpRequest = HttpRequest(
    verb: string,
    path: string,
    query: map<string, string>,
    authorization: Option<string>)

  function Authorization(token: string): (r: Option<string>)
    ensures r.Some? <==> token != ""
    ensures r.Some? ==> r.value == "token " + token
  {
    if |token| == 0 then None else Some("token " + token)
  }

  /** `doRequest` as written: the query values are set on the temporary map
      returned by `u.Query()`, so the URL keeps the base URL's own query. */
  function BuildRequestAsWritten(cfg: Config, a: RequestArgs): (r: HttpRequest)
    ensures r.query == cfg.base.query
    // method, path and token header as the builder that writes the values, for no values at all
    ensures r == BuildRequest(cfg, a.(values := map[]))
  {
    assert cfg.base.query + map[] == cfg.base.query;
    HttpRequest(a.verb, cfg.base.path + a.endpoint, cfg.base.query, Authorization(cfg.token))
  }

  /** As written, two descriptors that differ only in their `page` value
      become the same HTTP request: later pages are never asked for. */
  lemma PageNeverReachesQuery(cfg: Config, a: RequestArgs)
    ensures BuildRequestAsWritten(cfg, a.(values := a.values["page" := "2"]))
         == BuildRequestAsWritten(cfg, a.(values := a.values["page" := "3"]))
  {
  }

  /** `doRequest` with the query values written into the URL, as the page
      loop of the paginator needs: the path is the base path followed by the
      endpoint, each value overrides the base query, and the token is sent
      exactly when it is non-empty. */
  function BuildRequest(cfg: Config, a: RequestArgs): (r: HttpRequest)
    ensures r.verb == a.verb
    ensures |r.path| == |cfg.base.path| + |a.endpoint|
    ensures r.path[..|cfg.base.path|] == cfg.base.path && r.path[|cfg.base.path|..] == a.endpoint
    ensures forall k :: k in a.values ==> k in r.query && r.query[k] == a.values[k]
    ensures forall k :: k !in a.values ==> Lookup(r.query, k) == Lookup(cfg.base.query, k)
    ensures r.authorization.Some? <==> cfg.token != ""
    ensures r.authorization.Some? ==> r.authorization.value == "token " + cfg.token
  {
    HttpRequest(a.verb, cfg.base.path + a.endpoint, cfg.base.query + a.values, Authorization(cfg.token))
  }

  /** Which request builder a client runs: `doRequest` as written, whose
      query values never reach the URL, or the builder that writes them in. */
  datatype QueryBuilding = QueryDropped | QueryWritten

  function Build(mode: QueryBuilding, cfg: Config, a: RequestArgs): HttpRequest
  {
    if mode.QueryDropped? then BuildRequestAsWritten(cfg, a) else BuildRequest(cfg, a)
  }

  /** With the values written into the URL, descriptors that carry different
      `page` values are different requests. */
  lemma DistinctPagesDistinctRequests(cfg: Config, a: RequestArgs, p: string, q: string)
    requires p != q
    ensures BuildRequest(cfg, a.(values := a.values["page" := p]))
         != BuildRequest(cfg, a.(values := a.values["page" := q]))
  {
    var rp := BuildRequest(cfg, a.(values := a.values["page" := p]));
    var rq := BuildRequest(cfg, a.(values := a.values["page" := q]));
    assert rp.query["page"] == p && rq.query["page"] == q;
  }
}

=== FILE: db.dfy ===
/** The in-memory pull-request store (db/db.go): every stored record in
    insertion order, and an index from a record's ID to the record.

    The Go store is a mutable struct whose index points into its own slice;
    here a store is a value and every writing operation returns the new one.
    The store's operations never fail except the filter, whose predicate
    may, so only the filter returns a `Result`. */
module Db {
  import opened Results
  import opened PullRequest

  datatype Store = Store(pullRequests: seq<PullRequestData>, idIndex: map<int, PullRequestData>)

  /** The zero value `GetPullRequestByID` answers with for an unknown ID. */
  const ZeroRecord: PullRequestData := PullRequestData(0, 0, "", "")

  /** The most recently stored record with this ID, if any. */
  function LastWithId(prs: seq<PullRequestData>, id: int): (r: Option<PullRequestData>)
    ensures r.None? <==> forall i :: 0 <= i < |prs| ==> prs[i].id != id
    ensures r.Some? ==> r.value.id == id && r.value in prs
    ensures r.Some? ==> exists i :: 0 <= i < |prs| && prs[i] == r.value &&
                          forall j :: i < j < |prs| ==> prs[j].id != id
  {
    if |prs| == 0 then None
    else if prs[|prs| - 1].id == id then Some(prs[|prs| - 1])
    else LastWithId(prs[..|prs| - 1], id)
  }

  /** The store's invariant: the index holds, for each ID, the last record
      stored with it, and nothing for an ID never stored. */
  ghost predicate Valid(s: Store)
  {
    forall id :: Lookup(s.idIndex, id) == LastWithId(s.pullRequests, id)
  }

  /** Under the invariant the index's keys are exactly the stored IDs. */
  lemma IndexKeysAreStoredIds(s: Store, id: int)
    requires Valid(s)
    ensures id in s.idIndex <==> exists i :: 0 <= i < |s.pullRequests| && s.pullRequests[i].id == id
  {
    assert Lookup(s.idIndex, id) == LastWithId(s.pullRequests, id);
  }

  /** `NewDB`: no records and an empty index. */
  function NewDb(): (s: Store)
    ensures |s.pullRequests| == 0 && |s.idIndex| == 0
    ensures Valid(s)
  {
    Store([], map[])
  }

  /** `StorePullRequest`: append the record and point its ID at it. */
  function StorePullRequest(s: Store, pr: PullRequestData): (r: Store)
    ensures r.pullRequests == s.pullRequests + [pr]
    ensures Lookup(r.idIndex, pr.id) == Some(pr)
    ensures forall id :: id != pr.id ==> Lookup(r.idIndex, id) == Lookup(s.idIndex, id)
  {
    Store(s.pullRequests + [pr], s.idIndex[pr.id := pr])
  }

  /** Storing one record keeps the invariant: the last write wins. */
  lemma StorePreservesValid(s: Store, pr: PullRequestData)
    requires Valid(s)
    ensures Valid(StorePullRequest(s, pr))
  {
    var r := StorePullRequest(s, pr);
    forall id
      ensures Lookup(r.idIndex, id) == LastWithId(r.pullRequests, id)
    {
      assert r.pullRequests[..|r.pullRequests| - 1] == s.pullRequests;
      assert Lookup(s.idIndex, id) == LastWithId(s.pullRequests, id);
    }
  }

  /** Storing records one at a time, in order. */
  function StoreEach(s: Store, prs: seq<PullRequestData>): Store
  {
    if |prs| == 0 then s else StorePullRequest(StoreEach(s, prs[..|prs| - 1]), prs[|prs| - 1])
  }

  /** Storing a batch appends it in order, and each ID then maps to the last
      record of the batch with that ID, or to what it mapped to before when
      the batch does not mention it. */
  lemma {:induction false} StoreEachEffect(s: Store, prs: seq<PullRequestData>)
    ensures StoreEach(s, prs).pullRequests == s.pullRequests + prs
    ensures forall id :: Lookup(StoreEach(s, prs).idIndex, id) ==
              if LastWithId(prs, id).Some? then LastWithId(prs, id) else Lookup(s.idIndex, id)
    decreases |prs|
  {
    if |prs| > 0 {
      var init := prs[..|prs| - 1];
      StoreEachEffect(s, init);
      assert s.pullRequests + init + [prs[|prs| - 1]] == s.pullRequests + prs;
      forall id
        ensures Lookup(StoreEach(s, prs).idIndex, id) ==
                if LastWithId(prs, id).Some? then LastWithId(prs, id) else Lookup(s.idIndex, id)
      {
        assert Lookup(StoreEach(s, init).idIndex, id) ==
               if LastWithId(init, id).Some? then LastWithId(init, id) else Lookup(s.idIndex, id);
      }
    }
  }

  /** The invariant holds from `NewDB` through any batch of stores. */
  lemma {:induction false} StoreEachPreservesValid(s: Store, prs: seq<PullRequestData>)
    requires Valid(s)
    ensures Valid(StoreEach(s, prs))
    decreases |prs|
  {
    if |prs| > 0 {
      StoreEachPreservesValid(s, prs[..|prs| - 1]);
      StorePreservesValid(StoreEach(s, prs[..|prs| - 1]), prs[|prs| - 1]);
    }
  }

  /** `StorePullRequestBatch`: store each record in turn. */
  method StorePullRequestBatch(s: Store, prs: seq<PullRequestData>) returns (r: Store)
    ensures r == StoreEach(s, prs)
    ensures r.pullRequests == s.pullRequests + prs
    ensures Valid(s) ==> Valid(r)
  {
    r := s;
    var i := 0;
    while i < |prs|
      invariant 0 <= i <= |prs|
      invariant r == StoreEach(s, prs[..i])
    {
      assert prs[..i + 1][..i] == prs[..i];
      r := StorePullRequest(r, prs[i]);
      i := i + 1;
    }
    assert prs[..i] == prs;
    StoreEachEffect(s, prs);
    if Valid(s) {
      StoreEachPreservesValid(s, prs);
    }
  }

  /** `GetAllPullRequests`: a copy of every stored record, in insertion order. */
  function GetAllPullRequests(s: Store): (r: seq<PullRequestData>)
    ensures |r| == |s.pullRequests|
    ensures forall i :: 0 <= i < |r| ==> r[i] == s.pullRequests[i]
  {
    s.pullRequests
  }

  /** What was stored reads back, after what was there before, in order. */
  lemma ReadBackAfterStore(s: Store, prs: seq<PullRequestData>)
    ensures GetAllPullRequests(StoreEach(s, prs)) == GetAllPullRequests(s) + prs
  {
    StoreEachEffect(s, prs);
  }

  /** The records a filter keeps, in order, or the filter's first error. */
  function Select(prs: seq<PullRequestData>, f: PullRequestData -> Result<bool, Error>): Result<seq<PullRequestData>, Error>
  {
    if |prs| == 0 then Success([])
    else match Select(prs[..|prs| - 1], f)
      case Failure(e) => Failure(e)
      case Success(kept) =>
        match f(prs[|prs| - 1])
        case Failure(e) => Failure(e)
        case Success(keep) => Success(if keep then kept + [prs[|prs| - 1]] else kept)
  }

  /** `GetFilterPullRequests`: ask the filter about each record in order,
      keeping those it accepts; its first error ends the scan. The ghost
      output counts the records the filter was asked about. */
  method GetFilterPullRequests(s: Store, f: PullRequestData -> Result<bool, Error>)
    returns (r: Result<seq<PullRequestData>, Error>, ghost examined: nat)
    ensures r == Select(s.pullRequests, f)
    ensures examined <= |s.pullRequests|
    ensures forall i :: 0 <= i < examined - 1 ==> f(s.pullRequests[i]).Success?
    ensures r.Success? ==> examined == |s.pullRequests|
    // the error is the filter's, on the last record it was asked about
    ensures r.Failure? ==> examined >= 1 && f(s.pullRequests[examined - 1]) == Failure(r.error)
  {
    var prs := s.pullRequests;
    var kept: seq<PullRequestData> := [];
    var i := 0;
    while i < |prs|
      invariant 0 <= i <= |prs|
      invariant Select(prs[..i], f) == Success(kept)
      invariant forall j :: 0 <= j < i ==> f(prs[j]).Success?
    {
      assert prs[..i + 1][..i] == prs[..i];
      var ok := f(prs[i]);
      if ok.Failure? {
        assert Select(prs[..i + 1], f) == Failure(ok.error);
        SelectPrefixFailure(prs, i + 1, f);
        return Failure(ok.error), i + 1;
      }
      if ok.value {
        kept := kept + [prs[i]];
      }
      i := i + 1;
    }
    assert prs[..i] == prs;
    r, examined := Success(kept), i;
  }

  /** A filter error on a prefix is the error of the whole scan. */
  lemma {:induction false} SelectPrefixFailure(prs: seq<PullRequestData>, n: nat, f: PullRequestData -> Result<bool, Error>)
    requires n <= |prs| && Select(prs[..n], f).Failure?
    ensures Select(prs, f) == Select(prs[..n], f)
    decreases |prs|
  {
    if n < |prs| {
      assert prs[..|prs| - 1][..n] == prs[..n];
      SelectPrefixFailure(prs[..|prs| - 1], n, f);
    } else {
      assert prs[..n] == prs;
    }
  }

  /** A successful scan keeps exactly the records the filter accepts. */
  lemma {:induction false} SelectKeepsAccepted(prs: seq<PullRequestData>, f: PullRequestData -> Result<bool, Error>, x: PullRequestData)
    requires Select(prs, f).Success?
    ensures x in Select(prs, f).value <==> x in prs && f(x) == Success(true)
    decreases |prs|
  {
    if |prs| > 0 {
      var init := prs[..|prs| - 1];
      SelectKeepsAccepted(init, f, x);
      assert prs == init + [prs[|prs| - 1]];
    }
  }

  /** A successful scan fails nowhere: the filter answered every record. */
  lemma {:induction false} SelectSucceedsIffFilterDoes(prs: seq<PullRequestData>, f: PullRequestData -> Result<bool, Error>)
    ensures Select(prs, f).Success? <==> forall i :: 0 <= i < |prs| ==> f(prs[i]).Success?
    decreases |prs|
  {
    if |prs| > 0 {
      var init := prs[..|prs| - 1];
      SelectSucceedsIffFilterDoes(init, f);
      assert forall i :: 0 <= i < |init| ==> init[i] == prs[i];
    }
  }

  /** Filtering keeps insertion order: the kept records of a concatenation
      are those of its first part followed by those of its second. */
  lemma {:induction false} SelectAppend(a: seq<PullRequestData>, b: seq<PullRequestData>, f: PullRequestData -> Result<bool, Error>)
    requires Select(a, f).Success? && Select(b, f).Success?
    ensures Select(a + b, f) == Success(Select(a, f).value + Select(b, f).value)
    decreases |b|
  {
    if |b| == 0 {
      assert a + b == a;
      assert Select(a, f).value + Select(b, f).value == Select(a, f).value;
    } else {
      var init := b[..|b| - 1];
      var last := b[|b| - 1];
      assert Select(init, f).Success?;
      SelectAppend(a, init, f);
      assert (a + b)[..|a + b| - 1] == a + init;
      assert (a + b)[|a + b| - 1] == last;
      var ka, ki := Select(a, f).value, Select(init, f).value;
      assert ka + ki + [last] == ka + (ki + [last]);
    }
  }

  /** The result of `GetPullRequestByID`: the record (the zero record when
      absent) and whether it was found. */
  datatype Found = Found(record: PullRequestData, ok: bool)

  /** `GetPullRequestByID`: a copy of the indexed record. */
  function GetPullRequestById(s: Store, id: int): (r: Found)
    ensures r.ok <==> id in s.idIndex
    ensures r.ok ==> r.record == s.idIndex[id]
    ensures !r.ok ==> r.record == ZeroRecord
  {
    if id in s.idIndex then Found(s.idIndex[id], true) else Found(ZeroRecord, false)
  }

  /** Under the invariant, a lookup finds the last record stored with the
      ID, and reports absence for an ID never stored. */
  lemma LookupFindsLastWrite(s: Store, id: int)
    requires Valid(s)
    ensures GetPullRequestById(s, id) ==
              if LastWithId(s.pullRequests, id).Some? then Found(LastWithId(s.pullRequests, id).value, true)
              else Found(ZeroRecord, false)
  {
    assert Lookup(s.idIndex, id) == LastWithId(s.pullRequests, id);
  }

  /** A record just stored is what a lookup of its ID returns. */
  lemma ReadYourWrite(s: Store, pr: PullRequestData)
    ensures GetPullRequestById(StorePullRequest(s, pr), pr.id) == Found(pr, true)
  {
  }
}

=== FILE: pagination.dfy ===
/** `doFullPagination` (api/api.go): issue the first request, read the page
    count from the `last` relation of its Link header (Web Linking, section 3
    of RFC 8288), then hand every page, 1..N in order, to a consumer, stopping
    at the first error.

    The network, the Link-header parser and the URL parser are oracles held
    by a `Client`; the consumer is a state-passing function, so that what Go
    accumulates through a captured pointer is an explicit state here. */
module Pagination {
  import opened Results
  import opened Strconv
  import opened Api

  /** A constructed API client together with the outside world it talks to. */
  datatype Client<!R> = Client(
    cfg: Config,
    building: QueryBuilding,                 // how `doRequest` turns a descriptor into a URL
    fetch: HttpRequest -> Result<R, Error>,  // http.Client.Do
    lastLink: R -> Option<string>,           // URI of the `last` relation of the response's Link header
    parseUrl: string -> Result<Url, Error>)  // url.Parse

  /** `doRequest`: build the HTTP request from the descriptor and send it. */
  function Issue<R>(c: Client<R>, a: RequestArgs): (r: Result<R, Error>)
    // as written, the descriptor's values are ignored: it is sent as if it had none
    ensures c.building == QueryDropped ==> r == c.fetch(BuildRequest(c.cfg, a.(values := map[])))
    ensures c.building == QueryWritten ==> r == c.fetch(BuildRequest(c.cfg, a))
  {
    c.fetch(Build(c.building, c.cfg, a))
  }

  /** `u.Query().Get("page")`: the empty string when there is no such key. */
  function PageParam(u: Url): (p: string)
    ensures "page" in u.query ==> p == u.query["page"]
    ensures "page" !in u.query ==> p == ""
  {
    if "page" in u.query then u.query["page"] else ""
  }

  /** The page count announced by a first response: 1 unless there is a
      `last` link whose URL carries a non-empty `page` value, which must
      then parse and be a number. */
  function TotalPages<R>(c: Client<R>, resp: R): (r: Result<int, Error>)
    ensures c.lastLink(resp).None? ==> r == Success(1)
    ensures r.Success? && r.value != 1 ==>
              && c.lastLink(resp).Some?
              && c.parseUrl(c.lastLink(resp).value).Success?
              && Atoi(PageParam(c.parseUrl(c.lastLink(resp).value).value)) == Success(r.value)
    ensures r.Failure? ==>
              && c.lastLink(resp).Some?
              && (|| c.parseUrl(c.lastLink(resp).value) == Failure(r.error)
                  || (&& c.parseUrl(c.lastLink(resp).value).Success?
                      && Atoi(PageParam(c.parseUrl(c.lastLink(resp).value).value)) == Failure(r.error)))
    // a `last` link whose URL does not parse fails with the parser's error
    ensures c.lastLink(resp).Some? && c.parseUrl(c.lastLink(resp).value).Failure? ==>
              r == Failure(c.parseUrl(c.lastLink(resp).value).error)
    // a parsed `last` link: one page without a `page` value, else that value read as a number
    ensures c.lastLink(resp).Some? && c.parseUrl(c.lastLink(resp).value).Success? ==>
              var page := PageParam(c.parseUrl(c.lastLink(resp).value).value);
              && (page == "" ==> r == Success(1))
              && (page != "" ==> r == Atoi(page))
  {
    match c.lastLink(resp)
    case None => Success(1)
    case Some(uri) =>
      match c.parseUrl(uri)
      case Failure(e) => Failure(e)
      case Success(u) =>
        var page := PageParam(u);
        if page == "" then Success(1) else Atoi(page)
  }

  /** A `last` link whose `page` value was written by `Itoa(n)` announces
      exactly `n` pages. */
  lemma TotalPagesReadsLastPage<R>(c: Client<R>, resp: R, u: Url, n: int)
    requires MinInt64 <= n <= MaxInt64
    requires c.lastLink(resp).Some? && c.parseUrl(c.lastLink(resp).value) == Success(u)
    requires PageParam(u) == Itoa(n)
    ensures TotalPages(c, resp) == Success(n)
  {
    AtoiItoa(n);
  }

  /** How many times the consumer runs for an announced page count: the page
      loop `for curPage := 2; curPage <= N` runs N - 1 times, or not at all. */
  function PageCount(total: int): (n: nat)
    ensures n >= 1 && n >= total
    ensures total >= 1 ==> n == total
    // a count below 1 still means the first page alone
    ensures total < 1 ==> n == 1
  {
    if total < 1 then 1 else total
  }

  /** The descriptor sent for page `k` (1-based): the first request is the
      descriptor itself, later ones set its `page` value to `k`. */
  function PageRequest(base: RequestArgs, k: int): (r: RequestArgs)
    ensures r.endpoint == base.endpoint && r.verb == base.verb
    ensures k == 1 ==> r == base
    ensures k != 1 ==> r.values == base.values["page" := Itoa(k)]
  {
    if k == 1 then base else base.(values := base.values["page" := Itoa(k)])
  }

  /** Later page requests differ from one another in their `page` value. */
  lemma PageRequestsDistinct(base: RequestArgs, j: int, k: int)
    requires 2 <= j < k
    ensures PageRequest(base, j) != PageRequest(base, k)
    ensures PageRequest(base, j).values["page"] != PageRequest(base, k).values["page"]
  {
    ItoaInjective(j, k);
    assert PageRequest(base, j).values["page"] == Itoa(j);
    assert PageRequest(base, k).values["page"] == Itoa(k);
  }

  /** As written, the request for every page is the request for page 1, so
      every page of a complete walk is the first page again. */
  lemma DroppedQueryRepeatsFirstPage<R>(c: Client<R>, base: RequestArgs, ps: seq<R>)
    requires c.building == QueryDropped && CompleteWalk(c, base, ps)
    ensures forall i :: 0 <= i < |ps| ==> ps[i] == ps[0]
  {
    forall i | 0 <= i < |ps|
      ensures ps[i] == ps[0]
    {
      assert Build(c.building, c.cfg, PageRequest(base, i + 1)) == Build(c.building, c.cfg, base);
      assert Issue(c, PageRequest(base, i + 1)) == Success(ps[i]);
      assert Issue(c, PageRequest(base, 1)) == Success(ps[0]);
    }
  }

  /** Feed responses to the consumer in order, stopping at its first error. */
  function ConsumeAll<S, R>(consume: (S, R) -> Result<S, Error>, st: S, rs: seq<R>): Result<S, Error>
    decreases |rs|
  {
    if |rs| == 0 then Success(st)
    else match consume(st, rs[0])
      case Failure(e) => Failure(e)
      case Success(st') => ConsumeAll(consume, st', rs[1..])
  }

  lemma {:induction false} ConsumeAllSnoc<S, R>(consume: (S, R) -> Result<S, Error>, st: S, rs: seq<R>, r: R)
    ensures ConsumeAll(consume, st, rs).Failure? ==> ConsumeAll(consume, st, rs + [r]) == ConsumeAll(consume, st, rs)
    ensures ConsumeAll(consume, st, rs).Success? ==>
              ConsumeAll(consume, st, rs + [r]) == consume(ConsumeAll(consume, st, rs).value, r)
    decreases |rs|
  {
    if |rs| > 0 {
      assert (rs + [r])[1..] == rs[1..] + [r];
      match consume(st, rs[0])
      case Failure(e) =>
      case Success(st') => ConsumeAllSnoc(consume, st', rs[1..], r);
    }
  }

  /** An error on a prefix is the error of the whole run. */
  lemma {:induction false} ConsumeAllPrefixFailure<S, R>(consume: (S, R) -> Result<S, Error>, st: S, rs: seq<R>, more: seq<R>)
    requires ConsumeAll(consume, st, rs).Failure?
    ensures ConsumeAll(consume, st, rs + more) == ConsumeAll(consume, st, rs)
    decreases |rs|
  {
    assert |rs| > 0;
    assert (rs + more)[0] == rs[0];
    assert (rs + more)[1..] == rs[1..] + more;
    match consume(st, rs[0])
    case Failure(e) =>
    case Success(st') => ConsumeAllPrefixFailure(consume, st', rs[1..], more);
  }

  /** Response `k - 1` is what the request for page `k` returned. */
  ghost predicate Responded<R>(c: Client<R>, base: RequestArgs, rs: seq<R>)
  {
    forall k :: 1 <= k <= |rs| ==> Issue(c, PageRequest(base, k)) == Success(rs[k - 1])
  }

  /** `ps` is the whole paginated resource: every announced page, each one
      fetched without error. */
  ghost predicate CompleteWalk<R>(c: Client<R>, base: RequestArgs, ps: seq<R>)
  {
    && |ps| >= 1
    && Responded(c, base, ps)
    && TotalPages(c, ps[0]).Success?
    && |ps| == PageCount(TotalPages(c, ps[0]).value)
  }

  /** The server's answers determine the walk: there is at most one. */
  lemma WalkDeterministic<R>(c: Client<R>, base: RequestArgs, ps: seq<R>, qs: seq<R>)
    requires CompleteWalk(c, base, ps) && CompleteWalk(c, base, qs)
    ensures ps == qs
  {
    assert Issue(c, PageRequest(base, 1)) == Success(ps[0]) == Success(qs[0]);
    forall i | 0 <= i < |ps|
      ensures ps[i] == qs[i]
    {
      assert Issue(c, PageRequest(base, i + 1)) == Success(ps[i]) == Success(qs[i]);
    }
  }

  /** A complete walk starts with whatever responses a partial walk saw. */
  lemma WalkExtendsPrefix<R>(c: Client<R>, base: RequestArgs, rs: seq<R>, ps: seq<R>)
    requires Responded(c, base, rs) && CompleteWalk(c, base, ps) && |rs| <= |ps|
    ensures ps[..|rs|] == rs
  {
    forall i | 0 <= i < |rs|
      ensures ps[i] == rs[i]
    {
      assert Issue(c, PageRequest(base, i + 1)) == Success(ps[i]) == Success(rs[i]);
    }
  }

  /** A request that fails within the announced range leaves no complete walk. */
  lemma NoWalkPastFailure<R>(c: Client<R>, base: RequestArgs, first: R, k: int)
    requires Issue(c, base) == Success(first) && TotalPages(c, first).Success?
    requires 2 <= k <= PageCount(TotalPages(c, first).value)
    requires Issue(c, PageRequest(base, k)).Failure?
    ensures forall ps :: !CompleteWalk(c, base, ps)
  {
    assert PageRequest(base, 1) == base;
  }

  /** When the consumer fails on a page of the walk, it fails with the same
      error on every complete walk. */
  lemma AbortIsFinal<R, S>(c: Client<R>, base: RequestArgs, consume: (S, R) -> Result<S, Error>, st0: S, rs: seq<R>)
    requires |rs| >= 1 && Responded(c, base, rs)
    requires TotalPages(c, rs[0]).Success? && |rs| <= PageCount(TotalPages(c, rs[0]).value)
    requires ConsumeAll(consume, st0, rs).Failure?
    ensures forall ps :: CompleteWalk(c, base, ps) ==> ConsumeAll(consume, st0, ps) == ConsumeAll(consume, st0, rs)
  {
    forall ps | CompleteWalk(c, base, ps)
      ensures ConsumeAll(consume, st0, ps) == ConsumeAll(consume, st0, rs)
    {
      assert Issue(c, PageRequest(base, 1)) == Success(ps[0]) == Success(rs[0]);
      WalkExtendsPrefix(c, base, rs, ps);
      assert ps == rs + ps[|rs|..];
      ConsumeAllPrefixFailure(consume, st0, rs, ps[|rs|..]);
    }
  }

  /** Pages `k..total` fed to the consumer in order from state `st`, stopping
      at the first request or consumer error. */
  function PagesFrom<R, S>(c: Client<R>, base: RequestArgs, consume: (S, R) -> Result<S, Error>, st: S,
                           k: int, total: int): Result<S, Error>
    decreases total + 1 - k
  {
    if k > total then Success(st)
    else match Issue(c, PageRequest(base, k))
      case Failure(e) => Failure(e)
      case Success(resp) =>
        match consume(st, resp)
        case Failure(e) => Failure(e)
        case Success(st') => PagesFrom(c, base, consume, st', k + 1, total)
  }

  /** A failing request for page `k` ends the remaining pages with its error. */
  lemma PagesFromFetchFails<R, S>(c: Client<R>, base: RequestArgs, consume: (S, R) -> Result<S, Error>, st: S,
                                  k: int, total: int, e: Error)
    requires k <= total && Issue(c, PageRequest(base, k)) == Failure(e)
    ensures PagesFrom(c, base, consume, st, k, total) == Failure(e)
  {
  }

  /** A consumer error on page `k` ends the remaining pages with that error. */
  lemma PagesFromConsumeFails<R, S>(c: Client<R>, base: RequestArgs, consume: (S, R) -> Result<S, Error>, st: S,
                                    k: int, total: int, resp: R, e: Error)
    requires k <= total && Issue(c, PageRequest(base, k)) == Success(resp) && consume(st, resp) == Failure(e)
    ensures PagesFrom(c, base, consume, st, k, total) == Failure(e)
  {
  }

  /** A consumed page `k` leaves pages `k + 1..total` from the new state. */
  lemma PagesFromStep<R, S>(c: Client<R>, base: RequestArgs, consume: (S, R) -> Result<S, Error>, st: S,
                            k: int, total: int, resp: R, st': S)
    requires k <= total && Issue(c, PageRequest(base, k)) == Success(resp) && consume(st, resp) == Success(st')
    ensures PagesFrom(c, base, consume, st, k, total) == PagesFrom(c, base, consume, st', k + 1, total)
  {
  }

  /** The outcome of a paginated walk as one recursive definition: the first
      request, the page count it announces, the consumer on it, then pages
      2..N; the first error met is the outcome. */
  function Paginate<R, S>(c: Client<R>, base: RequestArgs, consume: (S, R) -> Result<S, Error>, st0: S): Result<S, Error>
  {
    match Issue(c, base)
    case Failure(e) => Failure(e)
    case Success(first) =>
      match TotalPages(c, first)
      case Failure(e) => Failure(e)
      case Success(total) =>
        match consume(st0, first)
        case Failure(e) => Failure(e)
        case Success(st1) => PagesFrom(c, base, consume, st1, 2, total)
  }

  /** The shape of a walk so far: pages 1, 2, ... were requested in order,
      every consumed response is the one its request returned, the consumer
      is at most one response behind the requests, it ran only once the page
      count was known, and no page past that count was requested. */
  ghost predicate WalkTrace<R>(c: Client<R>, args: RequestArgs, requests: seq<RequestArgs>, consumed: seq<R>)
  {
    && 1 <= |requests|
    && |requests| - 1 <= |consumed| <= |requests|
    && (forall i :: 0 <= i < |requests| ==> requests[i] == PageRequest(args, i + 1))
    && Responded(c, args, consumed)
    && (|consumed| >= 1 ==>
          TotalPages(c, consumed[0]).Success? && |requests| <= PageCount(TotalPages(c, consumed[0]).value))
  }

  /** The trace grows by the request for the next announced page. */
  lemma TraceRequest<R>(c: Client<R>, args: RequestArgs, requests: seq<RequestArgs>, consumed: seq<R>, k: int)
    requires WalkTrace(c, args, requests, consumed)
    requires 2 <= k && |requests| == |consumed| == k - 1
    requires k <= PageCount(TotalPages(c, consumed[0]).value)
    ensures WalkTrace(c, args, requests + [PageRequest(args, k)], consumed)
  {
    var rq := requests + [PageRequest(args, k)];
    forall i | 0 <= i < |rq|
      ensures rq[i] == PageRequest(args, i + 1)
    {
      if i < |requests| {
        assert rq[i] == requests[i];
      }
    }
  }

  /** The trace grows by the response to the last request. */
  lemma TraceResponse<R>(c: Client<R>, args: RequestArgs, requests: seq<RequestArgs>, consumed: seq<R>, r: R)
    requires WalkTrace(c, args, requests, consumed)
    requires 1 <= |consumed| == |requests| - 1
    requires Issue(c, requests[|requests| - 1]) == Success(r)
    ensures WalkTrace(c, args, requests, consumed + [r])
  {
    var rs := consumed + [r];
    forall k | 1 <= k <= |rs|
      ensures Issue(c, PageRequest(args, k)) == Success(rs[k - 1])
    {
      if k <= |consumed| {
        assert rs[k - 1] == consumed[k - 1];
      } else {
        assert requests[k - 1] == PageRequest(args, k);
      }
    }
    assert rs[0] == consumed[0];
  }

  /** How a walk ends in error `e`, leaving the consumer in state `st`:
      the last request failed, or the page count of the first response could
      not be read (before the consumer ever ran), or the consumer failed on
      the last response. */
  ghost predicate StoppedAtFirstError<R, S>(
    c: Client<R>, args: RequestArgs, consume: (S, R) -> Result<S, Error>, st0: S,
    requests: seq<RequestArgs>, consumed: seq<R>, st: S, e: Error)
    requires 1 <= |requests|
  {
    || (&& |consumed| == |requests| - 1
        && Issue(c, requests[|requests| - 1]) == Failure(e)
        && ConsumeAll(consume, st0, consumed) == Success(st))
    || (&& |requests| == 1 && |consumed| == 0 && st == st0
        && Issue(c, args).Success?
        && TotalPages(c, Issue(c, args).value) == Failure(e))
    || (&& |consumed| == |requests|
        && ConsumeAll(consume, st0, consumed[..|consumed| - 1]) == Success(st)
        && consume(st, consumed[|consumed| - 1]) == Failure(e))
  }

  /** `doFullPagination`. Besides the consumer's final state and the error,
      it returns the trace of descriptors sent and of responses consumed. */
  method DoFullPagination<R, S>(c: Client<R>, args: RequestArgs, consume: (S, R) -> Result<S, Error>, st0: S)
    returns (st: S, err: Option<Error>, ghost requests: seq<RequestArgs>, ghost consumed: seq<R>)
    ensures WalkTrace(c, args, requests, consumed)
    // success: every announced page was fetched and consumed
    ensures err.None? ==>
              && CompleteWalk(c, args, consumed)
              && |requests| == |consumed|
              && ConsumeAll(consume, st0, consumed) == Success(st)
    // failure: the walk stopped at the first error, which is returned unchanged
    ensures err.Some? ==> StoppedAtFirstError(c, args, consume, st0, requests, consumed, st, err.value)
    // the same outcome, stated against the resource alone
    ensures err.None? ==> exists ps :: CompleteWalk(c, args, ps) && ConsumeAll(consume, st0, ps) == Success(st)
    ensures err.Some? ==> forall ps :: CompleteWalk(c, args, ps) ==> ConsumeAll(consume, st0, ps) == Failure(err.value)
    // the same outcome as the recursive definition: the consumer's state, or the first error unchanged
    ensures err.None? ==> Paginate(c, args, consume, st0) == Success(st)
    ensures err.Some? ==> Paginate(c, args, consume, st0) == Failure(err.value)
  {
    var nArgs := DeepCopy(args);
    st, err, requests, consumed := st0, None, [nArgs], [];
    var first := Issue(c, nArgs);
    if first.Failure? {
      err := Some(first.error);
    } else {
      var resp := first.value;
      // the page count is read before the consumer can touch the response
      var total := TotalPages(c, resp);
      if total.Failure? {
        err := Some(total.error);
      } else {
        var step := consume(st, resp);
        consumed := [resp];
        if step.Failure? {
          assert consumed[..0] == [];
          err := Some(step.error);
        } else {
          st, err, requests, consumed := FetchLaterPages(c, args, consume, st0, resp, total.value, step.value);
        }
      }
    }
    if err.Some? {
      StoppedWalkFails(c, args, consume, st0, requests, consumed, st, err.value);
    }
  }

  /** The bookkeeping of one response in the page loop: the trace grows by
      it, and the consumer's run and the remaining pages move on by one page,
      or end with the consumer's error. */
  lemma PageConsumed<R, S>(c: Client<R>, args: RequestArgs, consume: (S, R) -> Result<S, Error>, st0: S, st1: S,
                           total: int, requests: seq<RequestArgs>, consumed: seq<R>, st: S,
                           resp: R, step: Result<S, Error>)
    requires WalkTrace(c, args, requests, consumed)
    requires 1 <= |consumed| == |requests| - 1 && |requests| <= total
    requires Issue(c, requests[|requests| - 1]) == Success(resp) && requests[|requests| - 1] == PageRequest(args, |requests|)
    requires ConsumeAll(consume, st0, consumed) == Success(st) && consume(st, resp) == step
    ensures WalkTrace(c, args, requests, consumed + [resp])
    ensures ConsumeAll(consume, st0, consumed + [resp]) == step
    ensures (consumed + [resp])[..|consumed|] == consumed
    ensures step.Failure? ==> PagesFrom(c, args, consume, st, |requests|, total) == Failure(step.error)
    ensures step.Success? ==>
              PagesFrom(c, args, consume, st, |requests|, total) == PagesFrom(c, args, consume, step.value, |requests| + 1, total)
  {
    ConsumeAllSnoc(consume, st0, consumed, resp);
    TraceResponse(c, args, requests, consumed, resp);
    assert (consumed + [resp])[..|consumed|] == consumed;
    if step.Failure? {
      PagesFromConsumeFails(c, args, consume, st, |requests|, total, resp, step.error);
    } else {
      PagesFromStep(c, args, consume, st, |requests|, total, resp, step.value);
    }
  }

  /** The page loop of `doFullPagination`, once the first response has been
      consumed into state `st1`: pages 2..N in order, stopping at the first
      error. The ghost outputs are the trace of the whole walk. */
  method FetchLaterPages<R, S>(c: Client<R>, args: RequestArgs, consume: (S, R) -> Result<S, Error>, st0: S,
                               first: R, totalPages: int, st1: S)
    returns (st: S, err: Option<Error>, ghost requests: seq<RequestArgs>, ghost consumed: seq<R>)
    requires Issue(c, args) == Success(first)
    requires TotalPages(c, first) == Success(totalPages)
    requires consume(st0, first) == Success(st1)
    ensures WalkTrace(c, args, requests, consumed)
    ensures err.None? ==>
              && CompleteWalk(c, args, consumed)
              && |requests| == |consumed|
              && ConsumeAll(consume, st0, consumed) == Success(st)
    ensures err.Some? ==> StoppedAtFirstError(c, args, consume, st0, requests, consumed, st, err.value)
    ensures err.None? ==> PagesFrom(c, args, consume, st1, 2, totalPages) == Success(st)
    ensures err.Some? ==> PagesFrom(c, args, consume, st1, 2, totalPages) == Failure(err.value)
  {
    st, requests, consumed := st1, [args], [first];
    assert ConsumeAll(consume, st1, consumed[1..]) == Success(st1);
    var curPage := 2;
    while curPage <= totalPages
      invariant 2 <= curPage <= PageCount(totalPages) + 1
      invariant |requests| == |consumed| == curPage - 1
      invariant consumed[0] == first
      invariant WalkTrace(c, args, requests, consumed)
      invariant ConsumeAll(consume, st0, consumed) == Success(st)
      invariant PagesFrom(c, args, consume, st1, 2, totalPages) == PagesFrom(c, args, consume, st, curPage, totalPages)
      decreases totalPages - curPage
    {
      // the copy's `page` value is overwritten on every page, so the
      // descriptor is the original's with this page's number
      var nArgs := args.(values := args.values["page" := Itoa(curPage)]);
      TraceRequest(c, args, requests, consumed, curPage);
      requests := requests + [nArgs];
      var next := Issue(c, nArgs);
      if next.Failure? {
        PagesFromFetchFails(c, args, consume, st, curPage, totalPages, next.error);
        return st, Some(next.error), requests, consumed;
      }
      var step := consume(st, next.value);
      PageConsumed(c, args, consume, st0, st1, totalPages, requests, consumed, st, next.value, step);
      consumed := consumed + [next.value];
      if step.Failure? {
        return st, Some(step.error), requests, consumed;
      }
      st := step.value;
      curPage := curPage + 1;
    }
    err := None;
  }

  /** A walk that stopped at an error has no successful completion: every
      complete walk of the same resource fails with that same error. */
  lemma StoppedWalkFails<R, S>(
    c: Client<R>, args: RequestArgs, consume: (S, R) -> Result<S, Error>, st0: S,
    requests: seq<RequestArgs>, consumed: seq<R>, st: S, e: Error)
    requires WalkTrace(c, args, requests, consumed)
    requires StoppedAtFirstError(c, args, consume, st0, requests, consumed, st, e)
    ensures forall ps :: CompleteWalk(c, args, ps) ==> ConsumeAll(consume, st0, ps) == Failure(e)
  {
    assert requests[0] == PageRequest(args, 1) == args;
    if |consumed| == |requests| - 1 && Issue(c, requests[|requests| - 1]) == Failure(e) {
      if |requests| >= 2 {
        NoWalkPastFailure(c, args, consumed[0], |requests|);
      }
    } else if |requests| == 1 && |consumed| == 0 {
    } else {
      var k := |consumed| - 1;
      ConsumeAllSnoc(consume, st0, consumed[..k], consumed[k]);
      assert consumed[..k] + [consumed[k]] == consumed;
      AbortIsFinal(c, args, consume, st0, consumed);
    }
  }

  /** `extractRepos` / `extractPRs`: decode one page and append it to the
      accumulator; on a decoding error the accumulator is left alone (the
      paginator keeps the state from before the failing call). */
  function ExtractStep<T, R>(decode: R -> Result<seq<T>, Error>, acc: seq<T>, resp: R): (r: Result<seq<T>, Error>)
    ensures decode(resp).Failure? ==> r == Failure(decode(resp).error)
    ensures decode(resp).Success? ==>
              && r.Success? && |r.value| == |acc| + |decode(resp).value|
              && r.value[..|acc|] == acc && r.value[|acc|..] == decode(resp).value
  {
    match decode(resp)
    case Failure(e) => Failure(e)
    case Success(page) => Success(acc + page)
  }

  /** The consumer `extractRepos(&repos)` builds: a function value of the
      paginator's consumer type. */
  function Extract<T(!new), R(!new)>(decode: R -> Result<seq<T>, Error>): (f: (seq<T>, R) -> Result<seq<T>, Error>)
    // a page that does not decode is an error, with nothing appended
    ensures forall acc: seq<T>, resp: R :: decode(resp).Failure? ==> f(acc, resp) == Failure(decode(resp).error)
    // a decoded page is appended after everything gathered so far
    ensures forall acc: seq<T>, resp: R :: decode(resp).Success? ==> f(acc, resp) == Success(acc + decode(resp).value)
  {
    (acc: seq<T>, resp: R) => ExtractStep(decode, acc, resp)
  }

  /** All pages decoded and concatenated in page order, or the first
      decoding error. */
  function DecodeAll<T, R>(decode: R -> Result<seq<T>, Error>, ps: seq<R>): Result<seq<T>, Error>
  {
    if |ps| == 0 then Success([])
    else match decode(ps[0])
      case Failure(e) => Failure(e)
      case Success(page) =>
        match DecodeAll(decode, ps[1..])
        case Failure(e) => Failure(e)
        case Success(rest) => Success(page + rest)
  }

  /** `n` copies of `xs`, one after another. */
  function Repeat<T>(xs: seq<T>, n: nat): seq<T>
  {
    if n == 0 then [] else xs + Repeat(xs, n - 1)
  }

  /** Decoding the same page over and over gives its records that many times. */
  lemma {:induction false} DecodeAllRepeated<T, R>(decode: R -> Result<seq<T>, Error>, p: R, ps: seq<R>)
    requires forall i :: 0 <= i < |ps| ==> ps[i] == p
    requires decode(p).Success?
    ensures DecodeAll(decode, ps) == Success(Repeat(decode(p).value, |ps|))
    decreases |ps|
  {
    if |ps| > 0 {
      DecodeAllRepeated(decode, p, ps[1..]);
    }
  }

  /** As written, a resource of N pages reads as N copies of its first
      page's records: a three-page listing returns page 1 three times. */
  lemma DroppedQueryReadsFirstPageOnly<T, R>(c: Client<R>, base: RequestArgs, decode: R -> Result<seq<T>, Error>, ps: seq<R>)
    requires c.building == QueryDropped && CompleteWalk(c, base, ps)
    requires decode(ps[0]).Success?
    ensures DecodeAll(decode, ps) == Success(Repeat(decode(ps[0]).value, |ps|))
  {
    DroppedQueryRepeatsFirstPage(c, base, ps);
    DecodeAllRepeated(decode, ps[0], ps);
  }

  /** Running the extracting consumer over a walk appends the concatenation
      of the decoded pages to the starting accumulator, or fails with the
      first decoding error. */
  lemma {:induction false} ConsumeExtract<T(!new), R(!new)>(decode: R -> Result<seq<T>, Error>, acc: seq<T>, ps: seq<R>)
    ensures DecodeAll(decode, ps).Success? ==>
              ConsumeAll(Extract(decode), acc, ps) == Success(acc + DecodeAll(decode, ps).value)
    ensures DecodeAll(decode, ps).Failure? ==>
              ConsumeAll(Extract(decode), acc, ps) == Failure(DecodeAll(decode, ps).error)
    decreases |ps|
  {
    if |ps| > 0 {
      assert Extract(decode)(acc, ps[0]) == ExtractStep(decode, acc, ps[0]);
      match decode(ps[0])
      case Failure(e) =>
      case Success(page) =>
        ConsumeExtract(decode, acc + page, ps[1..]);
        assert ConsumeAll(Extract(decode), acc, ps) == ConsumeAll(Extract(decode), acc + page, ps[1..]);
        match DecodeAll(decode, ps[1..])
        case Failure(e) =>
          assert DecodeAll(decode, ps) == Failure(e);
        case Success(rest) =>
          assert DecodeAll(decode, ps) == Success(page + rest);
          assert acc + page + rest == acc + (page + rest);
    } else {
      assert acc + [] == acc;
    }
  }

  /** The resource at `base` can be read: it has a complete walk and every
      page of it decodes. */
  ghost predicate Readable<T(!new), R(!new)>(c: Client<R>, base: RequestArgs, decode: R -> Result<seq<T>, Error>)
  {
    exists ps :: CompleteWalk(c, base, ps) && DecodeAll(decode, ps).Success?
  }

  /** The records of a readable resource: its decoded pages, concatenated in
      page order (the walk is unique, so the choice of `ps` is immaterial). */
  ghost function ReadAll<T(!new), R(!new)>(c: Client<R>, base: RequestArgs, decode: R -> Result<seq<T>, Error>): seq<T>
  {
    if Readable(c, base, decode) then
      var ps :| CompleteWalk(c, base, ps) && DecodeAll(decode, ps).Success?;
      DecodeAll(decode, ps).value
    else []
  }

  /** A walk that the extracting consumer got through shows the resource
      readable, and what it appended is the resource's records. */
  lemma ExtractedWalkReads<T(!new), R(!new)>(c: Client<R>, base: RequestArgs, decode: R -> Result<seq<T>, Error>,
                                 acc: seq<T>, ps: seq<R>, st: seq<T>)
    requires CompleteWalk(c, base, ps) && ConsumeAll(Extract(decode), acc, ps) == Success(st)
    ensures Readable(c, base, decode)
    ensures st == acc + ReadAll(c, base, decode)
  {
    ConsumeExtract(decode, acc, ps);
    assert DecodeAll(decode, ps).Success?;
    var qs :| CompleteWalk(c, base, qs) && DecodeAll(decode, qs).Success? && ReadAll(c, base, decode) == DecodeAll(decode, qs).value;
    WalkDeterministic(c, base, ps, qs);
  }

  /** When the extracting consumer fails on every complete walk, the
      resource is not readable, and decoding any complete walk gives that
      error. */
  lemma ExtractFailureUnreadable<T(!new), R(!new)>(c: Client<R>, base: RequestArgs, decode: R -> Result<seq<T>, Error>,
                                       acc: seq<T>, e: Error)
    requires forall ps :: CompleteWalk(c, base, ps) ==> ConsumeAll(Extract(decode), acc, ps) == Failure(e)
    ensures !Readable(c, base, decode)
    ensures forall ps :: CompleteWalk(c, base, ps) ==> DecodeAll(decode, ps) == Failure(e)
  {
    forall ps | CompleteWalk(c, base, ps)
      ensures DecodeAll(decode, ps) == Failure(e)
    {
      ConsumeExtract(decode, acc, ps);
    }
  }

  /** A result with `acc` in front of its records, errors unchanged. */
  function Prepend<T>(acc: seq<T>, r: Result<seq<T>, Error>): Result<seq<T>, Error>
  {
    match r
    case Success(xs) => Success(acc + xs)
    case Failure(e) => Failure(e)
  }

  /** Reading a resource from an empty list with the extracting consumer:
      its records, or the first request, page-count or decoding error. */
  function Read<T(!new), R(!new)>(c: Client<R>, base: RequestArgs, decode: R -> Result<seq<T>, Error>): Result<seq<T>, Error>
  {
    Paginate(c, base, Extract(decode), [])
  }

  /** The extracting consumer's starting list only ends up in front of what
      the pages add; it changes no error. */
  lemma {:induction false} PagesFromExtractShift<T(!new), R(!new)>(c: Client<R>, base: RequestArgs, decode: R -> Result<seq<T>, Error>,
                                                       acc: seq<T>, st: seq<T>, k: int, total: int)
    ensures PagesFrom(c, base, Extract(decode), acc + st, k, total)
         == Prepend(acc, PagesFrom(c, base, Extract(decode), st, k, total))
    decreases total + 1 - k
  {
    if k <= total {
      match Issue(c, PageRequest(base, k))
      case Failure(e) =>
      case Success(resp) =>
        assert Extract(decode)(acc + st, resp) == ExtractStep(decode, acc + st, resp);
        assert Extract(decode)(st, resp) == ExtractStep(decode, st, resp);
        match decode(resp)
        case Failure(e) =>
        case Success(page) =>
          assert acc + st + page == acc + (st + page);
          PagesFromExtractShift(c, base, decode, acc, st + page, k + 1, total);
    } else {
      assert Prepend(acc, Success(st)) == Success(acc + st);
    }
  }

  lemma PrependCancel<T>(acc: seq<T>, r: Result<seq<T>, Error>, ys: seq<T>)
    requires Prepend(acc, r) == Success(acc + ys)
    ensures r == Success(ys)
  {
    assert r.Success?;
    assert r.value == (acc + r.value)[|acc|..] == (acc + ys)[|acc|..] == ys;
  }

  /** Paginating with the extracting consumer from `acc` is reading the
      resource, with `acc` in front. */
  lemma PaginateExtractShift<T(!new), R(!new)>(c: Client<R>, base: RequestArgs, decode: R -> Result<seq<T>, Error>, acc: seq<T>)
    ensures Paginate(c, base, Extract(decode), acc) == Prepend(acc, Read(c, base, decode))
  {
    match Issue(c, base)
    case Failure(e) =>
    case Success(first) =>
      match TotalPages(c, first)
      case Failure(e) =>
      case Success(total) =>
        assert Extract(decode)(acc, first) == ExtractStep(decode, acc, first);
        assert Extract(decode)([], first) == ExtractStep(decode, [], first);
        match decode(first)
        case Failure(e) =>
        case Success(page) =>
          assert [] + page == page;
          PagesFromExtractShift(c, base, decode, acc, page, 2, total);
  }

  /** `doFullPagination(args, extractX(&acc))`, as both clients call it:
      walk the resource with the extracting consumer. It succeeds exactly
      when the resource can be read, appending its records to `acc`. The
      ghost output is the descriptors sent. */
  method ReadResource<T(!new), R(!new)>(c: Client<R>, base: RequestArgs, decode: R -> Result<seq<T>, Error>, acc: seq<T>)
    returns (r: Result<seq<T>, Error>, ghost requests: seq<RequestArgs>)
    ensures |requests| >= 1 && requests[0] == base
    ensures r.Success? <==> Readable(c, base, decode)
    ensures r.Success? ==> r.value == acc + ReadAll(c, base, decode)
    ensures r.Failure? ==> forall ps :: CompleteWalk(c, base, ps) ==> DecodeAll(decode, ps) == Failure(r.error)
    // the outcome is the resource's reading, after `acc`: a failure is the first
    // request, page-count or decoding error, unchanged
    ensures r == Prepend(acc, Read(c, base, decode))
    // so the recursive reading succeeds exactly on a readable resource, with its records
    ensures Read(c, base, decode).Success? <==> Readable(c, base, decode)
    ensures Read(c, base, decode).Success? ==> Read(c, base, decode).value == ReadAll(c, base, decode)
  {
    PaginateExtractShift(c, base, decode, acc);
    var st, err;
    ghost var consumed;
    st, err, requests, consumed := DoFullPagination(c, base, Extract(decode), acc);
    assert requests[0] == PageRequest(base, 1);
    if err.Some? {
      ExtractFailureUnreadable(c, base, decode, acc, err.value);
      assert Read(c, base, decode) == Failure(err.value);
      return Failure(err.value), requests;
    }
    ghost var ps :| CompleteWalk(c, base, ps) && ConsumeAll(Extract(decode), acc, ps) == Success(st);
    ExtractedWalkReads(c, base, decode, acc, ps, st);
    PrependCancel(acc, Read(c, base, decode), ReadAll(c, base, decode));
    r := Success(st);
  }
}

=== FILE: pr.dfy ===
/** The pull-request client (api/pr.go): which repositories to read, the
    endpoint that lists a repository's pull requests, `populateRepos`, which
    fills in the repositories of the owner when none are given, and `Get`,
    which walks every repository's pull requests in turn.

    JSON decoding is an oracle `decodePrs` (and `decodeRepos` for the
    listing) from one response to the page's records. */
module PullRequest {
  import opened Results
  import opened Api
  import opened Pagination
  import Repo

  /** `PullRequestArgs`: whose pull requests to read, and from which
      repositories (none means every repository of the owner). */
  datatype PullRequestArgs = PullRequestArgs(user: string, org: string, repos: seq<string>)

  /** The part of `PullRequestData` the program uses. */
  datatype PullRequestData = PullRequestData(id: int, number: int, state: string, title: string)

  /** `PullRequestArgs.validate`: exactly one of the user and the
      organisation must be named, the owner rule of the repository listing. */
  function Validate(a: PullRequestArgs): (r: Option<Error>)
    ensures r.None? <==> (a.user != "" <==> a.org == "")
    ensures r.Some? ==> r.value == UserOrg
  {
    Repo.Validate(Repo.RepoArgs(a.user, a.org))
  }

  /** The owner of the repositories: the user when one is named, else the
      organisation. */
  function Owner(user: string, org: string): (o: string)
    ensures user != "" ==> o == user
    ensures user == "" ==> o == org
  {
    if |user| != 0 then user else org
  }

  const ReposPrefix: string := "/repos/"
  const PullsSuffix: string := "/pulls"

  /** `pullRequest.formRequestArgs`: a GET of `/repos/{owner}/{repo}/pulls`
      with no query values. */
  function FormRequestArgs(user: string, org: string, repo: string): (r: RequestArgs)
    ensures r.verb == "GET" && r.values == map[]
    ensures r.endpoint == ReposPrefix + Owner(user, org) + "/" + repo + PullsSuffix
  {
    RequestArgs(map[], ReposPrefix + Owner(user, org) + "/" + repo + PullsSuffix, "GET")
  }

  /** For one owner, distinct repositories are read through distinct
      endpoints: the repository can be read back from the endpoint. */
  lemma FormRequestArgsInjective(user: string, org: string, repo1: string, repo2: string)
    requires FormRequestArgs(user, org, repo1) == FormRequestArgs(user, org, repo2)
    ensures repo1 == repo2
  {
    var e := FormRequestArgs(user, org, repo1).endpoint;
    var start := |ReposPrefix| + |Owner(user, org)| + 1;
    assert repo1 == e[start..|e| - |PullsSuffix|];
    assert repo2 == FormRequestArgs(user, org, repo2).endpoint[start..|e| - |PullsSuffix|];
  }

  /** The repository arguments `populateRepos` builds: only the user when one
      is named, else only the organisation, else neither. */
  function ScopeRepoArgs(a: PullRequestArgs): (r: Repo.RepoArgs)
    ensures a.user != "" ==> r == Repo.RepoArgs(a.user, "")
    ensures a.user == "" ==> r == Repo.RepoArgs("", a.org)
  {
    if |a.user| != 0 then Repo.RepoArgs(a.user, "")
    else if |a.org| != 0 then Repo.RepoArgs("", a.org)
    else Repo.RepoArgs("", "")
  }

  /** Arguments that pass validation give a listing the repository rule
      accepts, for the same owner the pull requests are read from. */
  lemma PopulateScopeValid(a: PullRequestArgs)
    requires Validate(a).None?
    ensures Repo.Validate(ScopeRepoArgs(a)).None?
    ensures Owner(ScopeRepoArgs(a).user, ScopeRepoArgs(a).org) == Owner(a.user, a.org)
  {
  }

  /** With the repository validator as written, the listing `populateRepos`
      asks for on a user's behalf is always refused, while the exactly-one
      rule accepts it. */
  lemma UserOnlyListingRefusedAsWritten(a: PullRequestArgs)
    requires a.user != ""
    ensures Repo.Check(Repo.OrgRequired, ScopeRepoArgs(a)) == Some(UserOrg)
    ensures Repo.Check(Repo.ExactlyOne, ScopeRepoArgs(a)) == None
  {
  }

  /** The names of listed repositories, in listing order. */
  function Names(rs: seq<Repo.RepoData>): (ns: seq<string>)
    ensures |ns| == |rs|
    ensures forall i :: 0 <= i < |rs| ==> ns[i] == rs[i].name
  {
    if |rs| == 0 then [] else Names(rs[..|rs| - 1]) + [rs[|rs| - 1].name]
  }

  /** The descriptor of the listing `populateRepos` asks for. */
  function ListingArgs(a: PullRequestArgs): RequestArgs
  {
    Repo.FormRequestArgs(ScopeRepoArgs(a).user, ScopeRepoArgs(a).org)
  }

  /** `populateRepos`: list the owner's repositories under the repository
      owner rule `rule` and append their names to the requested ones. Go
      appends to the caller's `args.Repos` through its pointer; `after` is
      the caller's arguments once the call returns. The ghost output is the
      listing's descriptors. */
  method PopulateRepos<R(!new)>(c: Client<R>, decodeRepos: R -> Result<seq<Repo.RepoData>, Error>,
                                rule: Repo.OwnerRule, a: PullRequestArgs)
    returns (r: Result<seq<string>, Error>, after: PullRequestArgs, ghost requests: seq<RequestArgs>)
    // the caller's arguments gain the names only when the listing was read
    ensures r.Success? ==> after == a.(repos := r.value)
    ensures r.Failure? ==> after == a
    ensures Repo.Check(rule, ScopeRepoArgs(a)).Some? ==> r == Failure(UserOrg) && requests == []
    // as written, a named user's repositories are never listed
    ensures rule == Repo.OrgRequired && a.user != "" ==> r == Failure(UserOrg) && requests == []
    // success exactly when the listing can be read; then its names follow the requested ones
    ensures r.Success? <==> Repo.Check(rule, ScopeRepoArgs(a)).None? && Readable(c, ListingArgs(a), decodeRepos)
    ensures r.Success? ==> r.value == a.repos + Names(ReadAll(c, ListingArgs(a), decodeRepos))
    ensures r.Failure? && Repo.Check(rule, ScopeRepoArgs(a)).None? ==>
              forall ps :: CompleteWalk(c, ListingArgs(a), ps) ==> DecodeAll(decodeRepos, ps) == Failure(r.error)
    // a failure of an accepted listing is the listing's first error, unchanged
    ensures r.Failure? && Repo.Check(rule, ScopeRepoArgs(a)).None? ==> Read(c, ListingArgs(a), decodeRepos) == Failure(r.error)
  {
    var repos;
    repos, requests := Repo.Get(c, decodeRepos, rule, ScopeRepoArgs(a));
    if repos.Failure? {
      return Failure(repos.error), a, requests;
    }
    r := Success(a.repos + Names(repos.value));
    after := a.(repos := r.value);
  }

  /** Every named repository's pull requests can be read. */
  ghost predicate AllReadable<R(!new)>(c: Client<R>, decodePrs: R -> Result<seq<PullRequestData>, Error>,
                                       user: string, org: string, repos: seq<string>)
  {
    forall i :: 0 <= i < |repos| ==> Readable(c, FormRequestArgs(user, org, repos[i]), decodePrs)
  }

  /** The pull requests of the named repositories, concatenated in the order
      the repositories are named. */
  ghost function AllPulls<R(!new)>(c: Client<R>, decodePrs: R -> Result<seq<PullRequestData>, Error>,
                                   user: string, org: string, repos: seq<string>): seq<PullRequestData>
  {
    if |repos| == 0 then []
    else AllPulls(c, decodePrs, user, org, repos[..|repos| - 1])
           + ReadAll(c, FormRequestArgs(user, org, repos[|repos| - 1]), decodePrs)
  }

  /** One more readable repository extends a readable prefix. */
  lemma AllReadableSnoc<R(!new)>(c: Client<R>, decodePrs: R -> Result<seq<PullRequestData>, Error>,
                                 user: string, org: string, repos: seq<string>, i: nat)
    requires i < |repos| && AllReadable(c, decodePrs, user, org, repos[..i])
    requires Readable(c, FormRequestArgs(user, org, repos[i]), decodePrs)
    ensures AllReadable(c, decodePrs, user, org, repos[..i + 1])
  {
    var next := repos[..i + 1];
    forall j | 0 <= j < |next|
      ensures Readable(c, FormRequestArgs(user, org, next[j]), decodePrs)
    {
      if j < i {
        assert next[j] == repos[..i][j];
      }
    }
  }

  lemma AllPullsSnoc<R(!new)>(c: Client<R>, decodePrs: R -> Result<seq<PullRequestData>, Error>,
                              user: string, org: string, repos: seq<string>, i: nat)
    requires i < |repos|
    ensures AllPulls(c, decodePrs, user, org, repos[..i + 1])
         == AllPulls(c, decodePrs, user, org, repos[..i]) + ReadAll(c, FormRequestArgs(user, org, repos[i]), decodePrs)
  {
    assert repos[..i + 1][..i] == repos[..i];
  }

  /** Repository `i` is the first that cannot be read: those before it can,
      reading it fails with `e`, and every complete walk of it fails to
      decode with `e`. */
  ghost predicate FailsAt<R(!new)>(c: Client<R>, decodePrs: R -> Result<seq<PullRequestData>, Error>,
                                   user: string, org: string, repos: seq<string>, i: int, e: Error)
  {
    && 0 <= i < |repos|
    && AllReadable(c, decodePrs, user, org, repos[..i])
    && Read(c, FormRequestArgs(user, org, repos[i]), decodePrs) == Failure(e)
    && forall ps :: CompleteWalk(c, FormRequestArgs(user, org, repos[i]), ps) ==> DecodeAll(decodePrs, ps) == Failure(e)
  }

  /** A repository that cannot be read makes the whole set unreadable. */
  lemma FailsAtUnreadable<R(!new)>(c: Client<R>, decodePrs: R -> Result<seq<PullRequestData>, Error>,
                                   user: string, org: string, repos: seq<string>, i: int, e: Error)
    requires FailsAt(c, decodePrs, user, org, repos, i, e)
    ensures !AllReadable(c, decodePrs, user, org, repos)
  {
    assert !Readable(c, FormRequestArgs(user, org, repos[i]), decodePrs);
  }

  /** The loop of `pullRequest.Get`: walk each repository's pull requests in
      order with the `extractPRs` consumer, all into one list. */
  method CollectPulls<R(!new)>(c: Client<R>, decodePrs: R -> Result<seq<PullRequestData>, Error>,
                               user: string, org: string, repos: seq<string>)
    returns (r: Result<seq<PullRequestData>, Error>, ghost sent: seq<RequestArgs>)
    // a request is sent exactly when some repository is named
    ensures sent == [] <==> repos == []
    // success exactly when every repository can be read; then all of them, in the given order
    ensures r.Success? <==> AllReadable(c, decodePrs, user, org, repos)
    ensures r.Success? ==> r.value == AllPulls(c, decodePrs, user, org, repos)
    // failure: the first repository that cannot be read, and nothing gathered is kept
    ensures r.Failure? ==> exists i :: FailsAt(c, decodePrs, user, org, repos, i, r.error)
  {
    var acc: seq<PullRequestData> := [];
    var i := 0;
    sent := [];
    while i < |repos|
      invariant 0 <= i <= |repos|
      invariant sent == [] <==> i == 0
      invariant AllReadable(c, decodePrs, user, org, repos[..i])
      invariant acc == AllPulls(c, decodePrs, user, org, repos[..i])
    {
      var reqArgs := FormRequestArgs(user, org, repos[i]);
      var step;
      ghost var requests;
      step, requests := ReadResource(c, reqArgs, decodePrs, acc);
      sent := sent + requests;
      if step.Failure? {
        assert FailsAt(c, decodePrs, user, org, repos, i, step.error);
        FailsAtUnreadable(c, decodePrs, user, org, repos, i, step.error);
        return Failure(step.error), sent;
      }
      AllReadableSnoc(c, decodePrs, user, org, repos, i);
      AllPullsSnoc(c, decodePrs, user, org, repos, i);
      acc := step.value;
      i := i + 1;
    }
    assert repos[..i] == repos;
    r := Success(acc);
  }

  /** `pullRequest.Get` lists the owner's repositories, and so writes their
      names into the caller's arguments: the arguments pass, name no
      repository, and the listing is accepted and readable. */
  ghost predicate ListingWritten<R(!new)>(c: Client<R>, decodeRepos: R -> Result<seq<Repo.RepoData>, Error>,
                                          rule: Repo.OwnerRule, a: PullRequestArgs)
  {
    && Validate(a).None? && a.repos == []
    && Repo.Check(rule, ScopeRepoArgs(a)).None?
    && Readable(c, ListingArgs(a), decodeRepos)
  }

  /** `pullRequest.Get`: validate; when no repository is named, list the
      owner's under the repository owner rule `rule`; then read every
      repository's pull requests in order. Any error discards everything
      gathered. The ghost outputs tell whether the owner's repositories were
      listed and which descriptors were sent, listing included. `after` is
      the caller's arguments once the call returns: a successful listing
      has written the owner's repository names into them, and they stay
      there even when a repository then fails. */
  method Get<R(!new)>(c: Client<R>, decodeRepos: R -> Result<seq<Repo.RepoData>, Error>,
                      decodePrs: R -> Result<seq<PullRequestData>, Error>, rule: Repo.OwnerRule, a: PullRequestArgs)
    returns (r: Result<seq<PullRequestData>, Error>, after: PullRequestArgs, ghost listed: bool, ghost sent: seq<RequestArgs>)
    // the caller's arguments keep the listed names, whatever the outcome of the pulls
    ensures ListingWritten(c, decodeRepos, rule, a) ==>
              after == a.(repos := Names(ReadAll(c, ListingArgs(a), decodeRepos)))
    // otherwise they are left as they were
    ensures !ListingWritten(c, decodeRepos, rule, a) ==> after == a
    // a refused argument is reported before any listing or request
    ensures Validate(a).Some? ==> r == Failure(UserOrg) && !listed && sent == []
    // the owner's repositories are listed exactly when none are named
    ensures Validate(a).None? ==> (listed <==> a.repos == [])
    // as written, a user who names no repository always gets the scope error, and nothing is sent
    ensures rule == Repo.OrgRequired && a.user != "" && a.repos == [] ==> r == Failure(UserOrg) && sent == []
    // named repositories: success exactly when each can be read; then all of them, in order
    ensures Validate(a).None? && a.repos != [] ==>
              && (r.Success? <==> AllReadable(c, decodePrs, a.user, a.org, a.repos))
              && (r.Success? ==> r.value == AllPulls(c, decodePrs, a.user, a.org, a.repos))
              && (r.Failure? ==> exists i :: FailsAt(c, decodePrs, a.user, a.org, a.repos, i, r.error))
    // no repositories named: the same over the names of the owner's listed repositories
    ensures Validate(a).None? && a.repos == [] ==>
              && (r.Success? <==>
                    && Repo.Check(rule, ScopeRepoArgs(a)).None?
                    && Readable(c, ListingArgs(a), decodeRepos)
                    && AllReadable(c, decodePrs, a.user, a.org, Names(ReadAll(c, ListingArgs(a), decodeRepos))))
              && (r.Success? ==>
                    r.value == AllPulls(c, decodePrs, a.user, a.org, Names(ReadAll(c, ListingArgs(a), decodeRepos))))
    // a listing refused by the owner rule fails with the scope error, before anything is sent
    ensures Validate(a).None? && a.repos == [] && Repo.Check(rule, ScopeRepoArgs(a)).Some? ==>
              r == Failure(UserOrg) && sent == []
    // an unreadable listing fails the call with the listing's error
    ensures Validate(a).None? && a.repos == [] && Repo.Check(rule, ScopeRepoArgs(a)).None?
            && !Readable(c, ListingArgs(a), decodeRepos) ==>
              && r.Failure?
              && Read(c, ListingArgs(a), decodeRepos) == Failure(r.error)
              && forall ps :: CompleteWalk(c, ListingArgs(a), ps) ==> DecodeAll(decodeRepos, ps) == Failure(r.error)
    // a readable listing whose repository fails: the first repository that cannot be read, with its error
    ensures Validate(a).None? && a.repos == [] && r.Failure?
            && Repo.Check(rule, ScopeRepoArgs(a)).None? && Readable(c, ListingArgs(a), decodeRepos) ==>
              exists i :: FailsAt(c, decodePrs, a.user, a.org, Names(ReadAll(c, ListingArgs(a), decodeRepos)), i, r.error)
  {
    listed, sent, after := false, [], a;
    var invalid := Validate(a);
    if invalid.Some? {
      return Failure(invalid.value), after, listed, sent;
    }
    var names := a.repos;
    if |a.repos| == 0 {
      listed := true;
      var populated;
      populated, after, sent := PopulateRepos(c, decodeRepos, rule, a);
      if populated.Failure? {
        return Failure(populated.error), after, listed, sent;
      }
      names := populated.value;
      assert names == Names(ReadAll(c, ListingArgs(a), decodeRepos));
    }
    ghost var pulled;
    r, pulled := CollectPulls(c, decodePrs, a.user, a.org, names);
    sent := sent + pulled;
  }
}

=== FILE: repo.dfy ===
/** The repository listing client (api/repo.go): which owner's repositories
    to list, the endpoint that lists them, and `Get`, which walks every page
    of the listing and concatenates the decoded repositories.

    JSON decoding is an oracle `decode` from one response to the page's
    repositories, reduced to the fields the rest of the program reads. */
module Repo {
  import opened Results
  import opened Api
  import opened Pagination

  /** `RepoArgs`: list the repositories of a user or of an organisation. */
  datatype RepoArgs = RepoArgs(user: string, org: string)

  /** The part of `RepoData` the program uses. */
  datatype RepoData = RepoData(id: int, name: string)

  /** `RepoArgs.validate` as written: it accepts exactly the arguments that
      name an organisation, so a user alone is refused and a user together
      with an organisation is let through. */
  function ValidateAsWritten(a: RepoArgs): (r: Option<Error>)
    ensures r.Some? <==> a.org == ""
    ensures r.Some? ==> r.value == UserOrg
  {
    if |a.user| != 0 && |a.org| == 0 then Some(UserOrg)
    else if |a.user| == 0 && |a.org| == 0 then Some(UserOrg)
    else None
  }

  /** The rule the error itself states ("either User or Org must be set, not
      both"), the one the pull-request arguments follow: exactly one of the
      two must be non-empty. */
  function Validate(a: RepoArgs): (r: Option<Error>)
    ensures r.None? <==> (a.user != "" <==> a.org == "")
    ensures r.Some? ==> r.value == UserOrg
  {
    if |a.user| != 0 && |a.org| != 0 then Some(UserOrg)
    else if |a.user| == 0 && |a.org| == 0 then Some(UserOrg)
    else None
  }

  /** The two validators part ways exactly when a user is named: as written,
      listing a user's repositories is refused and naming both owners is
      accepted. */
  lemma ValidatorsDisagreeOnUsers(a: RepoArgs)
    ensures ValidateAsWritten(a) != Validate(a) <==> a.user != ""
    ensures a.user != "" && a.org == "" ==> ValidateAsWritten(a).Some? && Validate(a).None?
    ensures a.user != "" && a.org != "" ==> ValidateAsWritten(a).None? && Validate(a).Some?
  {
  }

  /** A concrete user-only listing that the validator as written refuses. */
  lemma UserListingRefusedAsWritten()
    ensures ValidateAsWritten(RepoArgs("octocat", "")) == Some(UserOrg)
    ensures Validate(RepoArgs("octocat", "")) == None
  {
  }

  /** Which owner rule `repo.Get` applies: the one `RepoArgs.validate`
      implements (an organisation is required), or the exactly-one rule its
      error states. */
  datatype OwnerRule = OrgRequired | ExactlyOne

  function Check(rule: OwnerRule, a: RepoArgs): Option<Error>
  {
    if rule.OrgRequired? then ValidateAsWritten(a) else Validate(a)
  }

  const UsersPrefix: string := "/users/"
  const OrgsPrefix: string := "/orgs/"
  const ReposSuffix: string := "/repos"

  /** `repo.formRequestArgs`: a GET of `/users/{user}/repos` when a user is
      named, of `/orgs/{org}/repos` otherwise, with no query values. */
  function FormRequestArgs(user: string, org: string): (r: RequestArgs)
    ensures r.verb == "GET" && r.values == map[]
    ensures user != "" ==> r.endpoint == UsersPrefix + user + ReposSuffix
    ensures user == "" ==> r.endpoint == OrgsPrefix + org + ReposSuffix
  {
    var endpoint := if |user| != 0 then UsersPrefix + user + ReposSuffix else OrgsPrefix + org + ReposSuffix;
    RequestArgs(map[], endpoint, "GET")
  }

  /** A user's listing endpoint is never an organisation's. */
  lemma UserAndOrgEndpointsDiffer(user: string, org: string)
    ensures UsersPrefix + user + ReposSuffix != OrgsPrefix + org + ReposSuffix
  {
    assert (UsersPrefix + user + ReposSuffix)[1] == 'u';
    assert (OrgsPrefix + org + ReposSuffix)[1] == 'o';
  }

  /** Different owners are listed through different endpoints: the owner can
      be read back from the endpoint, and a user's listing never collides with
      an organisation's. */
  lemma FormRequestArgsInjective(a: RepoArgs, b: RepoArgs)
    requires Validate(a).None? && Validate(b).None?
    requires FormRequestArgs(a.user, a.org) == FormRequestArgs(b.user, b.org)
    ensures a == b
  {
    var ea := FormRequestArgs(a.user, a.org).endpoint;
    UserAndOrgEndpointsDiffer(a.user, b.org);
    UserAndOrgEndpointsDiffer(b.user, a.org);
    if a.user != "" && b.user != "" {
      assert a.user == ea[|UsersPrefix|..|ea| - |ReposSuffix|];
      assert b.user == ea[|UsersPrefix|..|ea| - |ReposSuffix|];
    } else if a.user == "" && b.user == "" {
      assert a.org == ea[|OrgsPrefix|..|ea| - |ReposSuffix|];
      assert b.org == ea[|OrgsPrefix|..|ea| - |ReposSuffix|];
    }
  }

  /** `repo.Get`: validate under `rule`, then walk the listing with the
      `extractRepos` consumer starting from an empty list. The ghost output
      is the descriptors sent. */
  method Get<R(!new)>(c: Client<R>, decode: R -> Result<seq<RepoData>, Error>, rule: OwnerRule, args: RepoArgs)
    returns (r: Result<seq<RepoData>, Error>, ghost requests: seq<RequestArgs>)
    // a refused argument is reported before any request is made
    ensures Check(rule, args).Some? ==> r == Failure(UserOrg) && requests == []
    ensures Check(rule, args).None? ==> |requests| >= 1 && requests[0] == FormRequestArgs(args.user, args.org)
    // as written, a user's repositories are never listed
    ensures rule == OrgRequired && args.org == "" ==> r == Failure(UserOrg) && requests == []
    // success exactly when the listing can be read; then it is the whole listing, in page order
    ensures r.Success? <==> Check(rule, args).None? && Readable(c, FormRequestArgs(args.user, args.org), decode)
    ensures r.Success? ==> r.value == ReadAll(c, FormRequestArgs(args.user, args.org), decode)
    // failure: no partial list, and every complete listing fails to decode with that error
    ensures r.Failure? && Check(rule, args).None? ==>
              forall ps :: CompleteWalk(c, FormRequestArgs(args.user, args.org), ps) ==>
                DecodeAll(decode, ps) == Failure(r.error)
    // accepted arguments: the outcome is reading the listing, its first error included
    ensures Check(rule, args).None? ==> r == Read(c, FormRequestArgs(args.user, args.org), decode)
  {
    var invalid := Check(rule, args);
    if invalid.Some? {
      return Failure(invalid.value), [];
    }
    var reqArgs := FormRequestArgs(args.user, args.org);
    r, requests := ReadResource(c, reqArgs, decode, []);
    if Read(c, reqArgs, decode).Success? {
      assert [] + Read(c, reqArgs, decode).value == Read(c, reqArgs, decode).value;
    }
    if r.Success? {
      assert [] + ReadAll(c, reqArgs, decode) == ReadAll(c, reqArgs, decode);
    }
  }
}

=== FILE: results.dfy ===
/** Failure-carrying values shared by every module of the model, and the
    errors the GitHub client can report. */
module Results {

  datatype Option<+T> = None | Some(value: T)

  datatype Result<+T, +E> = Success(value: T) | Failure(error: E)

  /** The errors of the client. Errors that come from outside the modelled
      code (the network, URL parsing, JSON decoding, a caller's filter) are
      opaque and carried unchanged as `External`. */
  datatype Error =
    | UserOrg                                  // api/errors.go: user/org scope is not valid
    | ArgUnsupported(field: string, value: int) // an argument value the client does not support
    | ArgMissing(field: string)                 // a required argument left empty
    | BadNumber(text: string)                   // strconv.Atoi rejected the text
    | External(reason: string)                  // produced by an oracle, passed through unchanged

  /** Look up a key in a map as an optional value. */
  function Lookup<K, V>(m: map<K, V>, k: K): (r: Option<V>)
    ensures r.Some? <==> k in m
    ensures r.Some? ==> r.value == m[k]
  {
    if k in m then Some(m[k]) else None
  }
}

=== FILE: strconv.dfy ===
/** The two decimal conversions the paginator relies on: `strconv.Itoa`, which
    writes the `page` query value, and `strconv.Atoi`, which reads the page
    count out of the `last` link. Go's `int` is 64 bits wide here. */
module Strconv {
  import opened Results

  const MinInt64: int := -0x8000_0000_0000_0000
  const MaxInt64: int := 0x7FFF_FFFF_FFFF_FFFF

  predicate IsDigit(ch: char) {
    '0' <= ch <= '9'
  }

  predicate AllDigits(s: string) {
    forall i :: 0 <= i < |s| ==> IsDigit(s[i])
  }

  /** The value of a string of decimal digits, most significant first. */
  function DigitsValue(s: string): nat
    requires AllDigits(s)
  {
    if |s| == 0 then 0
    else DigitsValue(s[..|s| - 1]) * 10 + (s[|s| - 1] as int - '0' as int)
  }

  /** Decimal digits of a natural number, without leading zeros. */
  function NatDigits(n: nat): (s: string)
    ensures |s| >= 1 && AllDigits(s)
  {
    if n < 10 then [('0' as int + n) as char]
    else NatDigits(n / 10) + [('0' as int + n % 10) as char]
  }

  /** `strconv.Itoa`: decimal text, with a leading '-' for negative values. */
  function Itoa(n: int): (r: string)
    ensures |r| >= 1
    ensures n < 0 ==> r[0] == '-' && |r| >= 2 && AllDigits(r[1..])
    ensures n >= 0 ==> AllDigits(r)
  {
    if n < 0 then "-" + NatDigits(-n) else NatDigits(n)
  }

  /** The digits after an optional leading '+' or '-'. */
  function Unsigned(s: string): string
  {
    if |s| >= 1 && (s[0] == '-' || s[0] == '+') then s[1..] else s
  }

  /** The value of signed decimal text whose digits are well formed. */
  function SignedValue(s: string): int
    requires AllDigits(Unsigned(s))
  {
    if |s| >= 1 && s[0] == '-' then -(DigitsValue(Unsigned(s)) as int) else DigitsValue(Unsigned(s))
  }

  /** `strconv.Atoi` for base 10: an optional '+' or '-' followed by at least
      one decimal digit, and a value that fits in 64 bits. Go's syntax and
      range errors are both reported as `BadNumber`. */
  function Atoi(s: string): (r: Result<int, Error>)
    ensures r.Success? <==>
              && |Unsigned(s)| >= 1 && AllDigits(Unsigned(s))
              && MinInt64 <= SignedValue(s) <= MaxInt64
    ensures r.Success? ==> r.value == SignedValue(s)
    ensures r.Failure? ==> r.error == BadNumber(s)
  {
    if |s| == 0 then Failure(BadNumber(s))
    else
      var digits := if s[0] == '-' || s[0] == '+' then s[1..] else s;
      if |digits| == 0 || !AllDigits(digits) then Failure(BadNumber(s))
      else
        var n: int := if s[0] == '-' then -(DigitsValue(digits) as int) else DigitsValue(digits);
        if MinInt64 <= n <= MaxInt64 then Success(n) else Failure(BadNumber(s))
  }

  /** Any sign, '+', '-' or none, in front of any non-empty run of digits
      (leading zeros included) reads as that signed value when it fits in 64
      bits, and is refused otherwise. */
  lemma AtoiSignedDigits(sign: string, digits: string)
    requires sign == "" || sign == "+" || sign == "-"
    requires |digits| >= 1 && AllDigits(digits)
    ensures var v: int := if sign == "-" then -(DigitsValue(digits) as int) else DigitsValue(digits);
            Atoi(sign + digits) == if MinInt64 <= v <= MaxInt64 then Success(v) else Failure(BadNumber(sign + digits))
  {
    var s := sign + digits;
    SignedParts(sign, digits);
    var r := Atoi(s);
    if r.Success? {
      assert r.value == SignedValue(s);
    }
  }

  /** The digits and the value of a sign followed by digits. */
  lemma SignedParts(sign: string, digits: string)
    requires sign == "" || sign == "+" || sign == "-"
    requires |digits| >= 1 && AllDigits(digits)
    ensures Unsigned(sign + digits) == digits
    ensures SignedValue(sign + digits) == if sign == "-" then -(DigitsValue(digits) as int) else DigitsValue(digits)
  {
    var s := sign + digits;
    if sign == "" {
      assert s == digits;
      assert IsDigit(s[0]);
    } else {
      assert s[1..] == digits;
    }
  }

  lemma {:induction false} NatDigitsValue(n: nat)
    ensures |NatDigits(n)| >= 1
    ensures AllDigits(NatDigits(n))
    ensures DigitsValue(NatDigits(n)) == n
  {
    var s := NatDigits(n);
    if n >= 10 {
      NatDigitsValue(n / 10);
      assert s[..|s| - 1] == NatDigits(n / 10);
    }
  }

  /** Reading back what `Itoa` wrote gives the original number. */
  lemma AtoiItoa(n: int)
    requires MinInt64 <= n <= MaxInt64
    ensures Atoi(Itoa(n)) == Success(n)
  {
    ItoaReadsBack(n);
    var s := Itoa(n);
    assert Unsigned(s) == if n < 0 then s[1..] else s;
  }

  /** Distinct numbers are written as distinct texts, whatever their size. */
  lemma ItoaInjective(a: int, b: int)
    requires a != b
    ensures Itoa(a) != Itoa(b)
  {
    ItoaReadsBack(a);
    ItoaReadsBack(b);
  }

  /** The text `Itoa` writes: a '-' exactly for negative values, followed by
      digits whose value is the magnitude. */
  lemma ItoaReadsBack(n: int)
    ensures |Itoa(n)| >= 1
    ensures Itoa(n)[0] == '-' <==> n < 0
    ensures n < 0 ==> AllDigits(Itoa(n)[1..]) && DigitsValue(Itoa(n)[1..]) == -n
    ensures n >= 0 ==> AllDigits(Itoa(n)) && DigitsValue(Itoa(n)) == n
  {
    if n < 0 {
      NatDigitsValue(-n);
      assert Itoa(n)[1..] == NatDigits(-n);
    } else {
      NatDigitsValue(n);
      assert IsDigit(Itoa(n)[0]);
    }
  }
}
